=== FILE: README.md ===
# promisync, modelled in Dafny

promisync builds promise-like chains whose every stage is run by a
scheduler the caller supplies, one per stage name (`then`, `catch`,
`finally`, or any other name). Its engine is the `chained` primitive: a
link with `_done`, `_result` and a pending tail `_chain`, a `wrap` task
handed to the link's scheduler, `resolve` and `reject` that settle the link
once, and a dispatcher that builds a child link for each stage call and
either schedules it at once or appends it to the parent's tail. A
rejection is a marker on the result object itself, set by `mark_rejected`
and cleared by `catch`. `Promise`, `Promise.resolve`, `Promise.reject`,
`Promise.race` and `Promise.all` are built from the same primitive.

The model is a transition system of immutable values:

- `values.dfy` (module `Values`): values are `null`/`undefined`, numbers,
  or references into a heap of objects. Each object has a kind and the
  rejection marker. `mark_rejected` and reading and writing the marker are
  defined here.
- `engine.dfy` (module `Engine`): the `World` holds the stage names, one
  FIFO task queue per stage (the caller's schedulers), the links by id,
  the heap, the `_fill` variable of each `Promise` root, and the countdowns
  of `Promise.all`. It defines `resolve`, `reject`, `wrap`, the `fill`
  adapters, the dispatcher, tail flushing and thenable adoption. `Step`
  lets one scheduler run the task at the head of its queue.
- `combinators.dfy` (module `Combinators`): the chain entry points and
  `Promise`, `Promise.resolve`, `Promise.reject`, `Promise.race` and
  `Promise.all`.
- `link_properties.dfy`, `ordering.dfy` and `promise_properties.dfy` hold
  lemmas about the model:
  - settlement happens once and is final;
  - rejection travels through `then`, `catch` and `finally` as described;
  - children are scheduled in attachment order;
  - the behaviour of `Promise` roots and the combinators.

Every transition preserves `Engine.Progress`:

- the stores only grow;
- a link keeps how it was built;
- a settled link stays settled with the same result.

Most contracts state this alongside their own facts.

The model follows the code literally where it is surprising:

- `resolve` hands the tail to the scheduler before it records `_result`.
  The model keeps this order, but no modelled scheduler runs a task inside
  `schedule`, so here the order cannot be observed (see "Left out").
- A `Promise` root's scheduler only stores the task it is given. So a
  settled root's tail is kept in `_fill` and runs only if the executor's
  `reject` is called later.
- A value is adopted when it is a chain proxy or a foreign thenable.
  Adopting a chain proxy is the two-argument `then`, so it attaches a
  `then` child and a `catch` child.
- The `catch` adapter and the default adapter read the marker of the
  parent's result. That read throws when the result is `null` or
  `undefined`.

## Model

| member | source | states |
|---|---|---|
| Values.Thenable | index.js:167 | a value is adopted only if it is an object of the heap, never `null`/`undefined` or a number |
| Values.MarkRejected | index.js:122-126 | the returned value always carries the rejection marker; an object is tagged in place and returned as itself, anything else is boxed into a fresh object; tagging never makes a value thenable and changes no other object |
| Values.MarkRejectedIdempotent | index.js:122-126 | tagging a value that already carries the marker returns it unchanged and leaves the heap as it was |
| Values.ReadFlag | index.js:185 | reading the marker fails exactly on `null`/`undefined`; otherwise it reports whether the object is rejected |
| Values.SetFlag | index.js:186 | writing the marker changes that one object's marker and nothing else |
| Engine.FillFor | index.js:181-197 | the `finally` adapter is chosen exactly for the name `finally`, the `catch` adapter exactly for `catch`, the pass-through adapter for every other stage name |
| Engine.Build | index.js:137 | a fresh engine has empty scheduler queues, no links and no objects |
| Engine.Flush | index.js:206-211 | running a tail adds to each stage's queue exactly that stage's tasks from the tail, in tail order, and changes nothing else |
| Engine.Schedule | index.js:199-212 | a child whose parent is done goes to the end of its stage's queue; one whose parent is pending is appended to the parent's tail; a `Promise` root's scheduler overwrites `_fill`; no link is settled or unsettled |
| Engine.NewLink | index.js:144-175 | a new link is pending with an empty tail and a fresh proxy object, its `wrap` is handed to its scheduler at once, and no existing link changes its status |
| Engine.Dispatch | index.js:176-213 | the child of a stage call gets the adapter for that stage; on a done parent it is queued on the stage right away, on a pending parent it is appended to the parent's tail and nothing is queued |
| Engine.Attach | index.js:176-180 | with a recovery handler the call makes the stage child plus a `catch` child of it that calls the recovery; the returned link is a new pending link |
| Engine.Resolve | index.js:153-159 | the first call on a pending link marks it done with the value and hands its tail to its scheduler: a chain's first link or a child of a settled parent queues it as one task on its stage, a child of a pending parent appends it to that parent's tail, in both cases leaving `_fill` alone, and a `Promise` root stores it in `_fill`; later calls change nothing and return `undefined` |
| Engine.Reject | index.js:160-162 | rejecting a pending link settles it with a value that carries the marker: an object itself, anything else a fresh box of it; the tail goes where `resolve` sends it; on a settled link no link or queue changes |
| Engine.Adopt | index.js:167-168 | adopting the proxy of link `l2` attaches a `then` child of `l2` calling `resolve` and a `catch` child of that child calling `reject`, both pending; adopting a foreign thenable (an object the caller's code made; the engine creates none) only records that the link waits for it; no existing link changes status and every existing object stays |
| Engine.Settle | index.js:167-171 | a thenable return value is adopted; any other value settles a pending link with that value and leaves a settled link's world unchanged |
| Engine.WrapIdentity | index.js:163-174 | the `wrap` of a `Promise` root settles the pending root with its argument and returns it; on a done root it does nothing |
| Engine.CallStored | index.js:233-235 | calling whatever a root's `_fill` holds never undoes a settlement |
| Engine.CountIn | index.js:265-272 | a fulfilment is stored at its index of the array and the count drops by one; the root is resolved with the array exactly when the count reaches zero, and no link changes otherwise |
| Engine.Invoke | index.js:239-243 | a caller's handler is called with the given arguments and changes nothing else; the handler of `Promise.resolve(x)` returns `x` |
| Engine.RunFill | index.js:181-197 | `finally` calls the handler with the scheduler's argument and hands on the parent's result; `catch` clears the marker of a rejected result and returns the handler's value, or hands on a fulfilled result untouched; other stages hand on a rejected result untouched or return the handler's value; the adapter throws exactly on a `null`/`undefined` parent result outside `finally` |
| Engine.CallBody | index.js:166 | calling a link's handler: `ID` returns its first argument, a stored function is called with the scheduler's arguments, a stage adapter runs over its parent's result; the call throws exactly for a non-`finally` adapter over a `null`/`undefined` parent result |
| Engine.Wrap | index.js:163-174 | `wrap` does nothing once the link is done; while it is pending it calls the handler once, adopts a thenable result or settles with the result, and returns the result; it fails exactly when the handler throws |
| Engine.Step | index.js:175 | a scheduler step with an empty queue changes nothing; every step keeps all settlements |
| Engine.StepRunsTail | index.js:206-211 | a step whose head task is a tail hands every entry of it to its stage, behind what was queued already, and changes no link, object or `_fill` |
| Engine.StepRunsWrap | index.js:175 | a step whose head task is a link's `wrap` removes it from the queue, keeps the rest in order and runs the `wrap`; when it throws, a catching scheduler calls the link's `reject` and any other scheduler drops the task |
| Engine.ForeignSettle | index.js:167-168 | a foreign thenable calling `resolve` settles the waiting link with its value, calling `reject` settles it with a marked value |
| Combinators.Start | index.js:221-224 | the first link of a chain on stage `m` is pending with the caller's handler, and its task is queued on `m` and on no other stage |
| Combinators.Chain | index.js:176-214 | a stage call on a chain proxy returns a new pending link and settles no existing one |
| Combinators.NewPromise | index.js:225-231 | a `Promise` root is pending with handler `ID`, schedules into its own `_fill`, and that `_fill` holds the root's `wrap`; no queue changes and only its proxy object is added |
| Combinators.PromiseResolve | index.js:239-243 | `Promise.resolve(x)` is a new pending `then` link whose handler returns `x`, queued on `then` |
| Combinators.PromiseReject | index.js:244-248 | `Promise.reject(x)` is a new pending `catch` link whose handler tags `x`, queued on `catch` |
| Combinators.RaceOne | index.js:254 | one input gets a pending `then` child, scheduled after that input, that calls the executor's `resolve`, and a pending `catch` child of it that calls the executor's `reject`; `_fill` and existing objects are untouched |
| Combinators.Race | index.js:249-257 | `Promise.race` makes a pending `Promise` root whose `_fill` holds its `wrap` and visits the inputs from the last to the first, giving each a pending `resolve` child scheduled after that input and a pending `reject` child; no existing link changes status and existing objects are kept |
| Combinators.Holes | index.js:263 | `Array(length)` has `length` empty slots |
| Combinators.CollectOne | index.js:265-272 | one input gets a pending `then` child, scheduled after that input, with its index's collector, and a pending `catch` child of it that calls the executor's `reject` |
| Combinators.CollectEach | index.js:264-274 | the loop gives input `i` its collector for index `i`, scheduled after input `i`, and a `reject` child, in input order, all pending |
| Combinators.All | index.js:258-276 | `Promise.all` makes a pending `Promise` root whose `_fill` holds its `wrap`, an array of holes as long as the list, and a countdown starting at the list's length; input `i` gets pending collector and `reject` children for index `i`; existing objects are kept; an empty list attaches nothing |
| LinkProperties.ResolveOnce | index.js:153-162 | after the first `resolve` a second `resolve` changes nothing and returns `undefined`, a `reject` changes no link, and the first value stays |
| LinkProperties.StepKeepsSettlement | index.js:153-159 | a settled link keeps its status and result through any scheduler step |
| LinkProperties.PassSkipsRejected | index.js:191-193 | a non-`catch`, non-`finally` child of a rejected parent settles with the very same rejected object without calling its handler |
| LinkProperties.PassCallsHandler | index.js:194-196 | such a child of a fulfilled parent settles with the handler's value for the parent's result and the scheduler's argument |
| LinkProperties.CatchRecovers | index.js:184-187 | a `catch` child of a rejected parent settles with its handler's value, and the parent, still holding the same object, reads as not rejected afterwards |
| LinkProperties.CatchPassesFulfilled | index.js:188-190 | a `catch` child of a fulfilled parent settles with the parent's result without calling its handler |
| LinkProperties.SecondCatchSeesRecovered | index.js:184-190 | of two `catch` children of one rejected parent, only the first recovers; the second finds the marker cleared and hands on the parent's result unrejected |
| LinkProperties.FinallyKeepsParentResult | index.js:181-183 | a `finally` child settles with the parent's result whatever its handler returns, and the marker is left as it was |
| LinkProperties.NullishParentThrows | index.js:184-197 | a `catch` or default-stage child of a parent that settled with `null`/`undefined` throws; it stays pending unless the scheduler catches and calls the task's `reject`, which settles it rejected |
| LinkProperties.PassToResolver | index.js:194-196 | a `then` child whose handler is another link's `resolve`, over a fulfilled parent, settles that link with the parent's result |
| LinkProperties.CatchToRejecter | index.js:184-187 | a `catch` child whose handler is another link's `reject`, over a rejected parent, settles that link with the parent's very result object, marked rejected again |
| LinkProperties.PairForwardsRejection | index.js:184-193 | over a rejected parent, running the `then` child (which hands the rejection on) and then its `catch` child settles the target link with the parent's result, marked rejected |
| LinkProperties.AdoptedPair | index.js:167-168 | after adopting the proxy of `l2`, the `then` and `catch` children are the two newest links, pending, and the adopting link is still pending with `l2`'s result reading as before |
| LinkProperties.AdoptedFulfilment | index.js:163-171 | when a handler returned the proxy of `l2` and `l2` fulfilled, running the adoption's `then` child settles the adopting link with `l2`'s result |
| LinkProperties.AdoptedRejection | index.js:163-171 | when `l2` settled rejected, running the adoption's `then` child and then its `catch` child settles the adopting link with `l2`'s very result object, marked rejected |
| Ordering.AttachMany | index.js:176-213 | consecutive stage calls on one proxy create consecutive new links, all pending, and change no existing link's status |
| Ordering.PendingCallsQueueInOrder | index.js:203-211 | stage calls on a pending link queue nothing; the parent's tail gains one entry per call, in call order |
| Ordering.SettledCallQueues | index.js:200-201 | one stage call on a settled link puts the child at the end of that stage's queue |
| Ordering.SettledCallsScheduleAtOnce | index.js:199-201 | stage calls on a settled link add to each stage's queue exactly that stage's children, in call order |
| Ordering.SettleThenRunTail | index.js:153-157 | settling a pending link that is a chain's first link or a child of a settled parent queues its tail as one task on its own stage; running that task hands every entry to its stage |
| Ordering.AttachKeepsHead | index.js:203-211 | stage calls on a pending link queue nothing, leave it pending with the same scheduler, and make its tail the children's entries in call order |
| Ordering.TailFlushedInCallOrder | index.js:199-212 | children attached to a pending link (a chain's first link, or a child of a settled parent such as `a.then(f)` once `a` settled) are not scheduled until it settles; then its scheduler receives the tail as one task, and running it adds to every stage's queue exactly its children, in call order |
| PromiseProperties.ExecutorResolveStoresTail | index.js:225-233 | the executor's `resolve` settles a pending root, but the root's tail is stored in `_fill`, not queued |
| PromiseProperties.LateRejectRunsStoredTail | index.js:233-235 | a `reject` after the root settled leaves every link alone and runs the stored tail, queuing the root's children in attachment order |
| PromiseProperties.PromiseResolveSettles | index.js:239-243 | once the `then` scheduler runs it, `Promise.resolve(x)` is fulfilled with `x` and the marker of `x` is unchanged |
| PromiseProperties.PromiseRejectSettles | index.js:244-248 | once the `catch` scheduler runs it, `Promise.reject(x)` is settled rejected, with `x` itself when `x` is an object |
| PromiseProperties.RaceFirstWins | index.js:249-257 | once the root of `Promise.race` is settled, a later `resolve` is a no-op and a later `reject` keeps the root's result |
| PromiseProperties.ResolutionForwarded | index.js:254 | when an input fulfils with a value that is not thenable, its `then` child settles a pending root of `Promise.race` with that value |
| PromiseProperties.RaceTakesFulfilledInput | index.js:249-257 | on the race `Combinators.Race` builds, when an input has already fulfilled with a plain value, running its `then` child settles the root with that value |
| PromiseProperties.AllTakesRejectedInput | index.js:258-276 | on the root `Combinators.All` builds, when an input has already settled rejected, running its `then` child and then its `catch` child settles the root with the input's own result object, marked rejected |
| PromiseProperties.RejectionForwarded | index.js:254 | when an input settles rejected, its `reject` child settles a pending root with the input's own result object, marked rejected |
| PromiseProperties.AllSettlesWhenCountReachesZero | index.js:258-276 | fulfilments for distinct indices land at their indices, no other slot changes, and the root is resolved with the array exactly when every outstanding input has fulfilled, in any order |
| PromiseProperties.ExhaustedCountdownNeverSettles | index.js:268-270 | collector calls on a countdown already at or below zero never settle the root |

## Left out

- The usage comment block at the top of index.js is documentation only.
- The proxy library `@playframe/proxy` is not part of this model. A stage method called on a proxy is `Engine.Attach` on the proxy's link id. `_h` is the same dispatch without a recovery handler.
- Schedulers have no timing. Each one is a FIFO queue that the caller drains with `Engine.Step`. The scheduler calls each task with one argument, which is a parameter of the step.
- Schedulers that run a task inside `schedule` itself, such as `trySyncronously` (index.js:96), are not modelled. Under them a child flushed from a parent's tail runs before `resolve` records `_result` (index.js:156-157), so it reads `null`: a `catch` or default-stage child throws (index.js:185, 192), and a `finally` child, which never reads the marker, settles with `null` (index.js:181-183). The first run of a `wrap` also happens before `wrap.r` is assigned (index.js:175), so such a scheduler cannot call `reject` on it.
- LinkProperties.NullishParentThrows: the recovery through `wrap.r` it states holds for schedulers that defer their tasks; for one that runs the task inside `schedule` on its first run `wrap.r` is not yet set.
- Caller handlers are pure functions of their arguments. Their side effects are not modelled, and neither is a handler that throws. The one exception modelled is the `TypeError` of the `fill` adapters, and a scheduler that catches it and calls `wrap.r`.
- The `Promise` executor is arbitrary caller code. It is modelled as the caller calling `resolve` and `reject` through `Engine.Invoke`, with `ExecResolve` and `ExecReject`.
- A foreign thenable's own code is not modelled. Adopting one records the link, and `Engine.ForeignSettle` is the later call to `resolve` or `reject`. No operation of the engine creates a foreign thenable: an object of kind `Foreign` is one the caller's code made, so it is part of the world the caller starts from, and the foreign cases of `Engine.Adopt` and `Engine.ForeignSettle` apply to such worlds.
- Combinators.Race: its inputs are links of this engine, given by id. The source calls `list[i].then(resolve, reject)` on any thenable (index.js:254), and the usage examples mix engines (index.js:78-82), so a native promise, a foreign thenable or another engine's proxy can be an input. Such an input runs code outside this engine, which is not modelled.
- Combinators.All: its inputs are links of this engine, given by id, for the same reason. The source calls `list[i].then(collect(i), reject)` on any thenable (index.js:265-272).
- Only `null`/`undefined` and numbers are modelled as primitive values. Strings and booleans are left out, and so are `Symbol` and garbage collection.
- The engine always has `then` and `catch` stages. Without a `then` stage a chain proxy has no `then` method, so `result && result.then` is false and the proxy would be settled as a plain value instead of adopted. Without a `catch` stage, the two-argument call form would throw, and so would `Promise.reject` (`chain.catch`, index.js:245) and `Promise.race` and `Promise.all` on a non-empty list, which use the two-argument form (index.js:254, 265-272); `Promise(...)` and `Promise.resolve` never touch `catch` (index.js:225-243).
- Ids that do not exist cannot arise in the source. The model gives them a defined but arbitrary meaning:
  - `Resolve`, `Wrap` and `WrapIdentity` on a link id that does not exist, `CountIn` on a countdown id that does not exist, `CallStored` on a root without a `_fill`, and `Adopt` on the proxy of a link that does not exist all return the world unchanged.
  - `Reject` on such a link still tags its argument first, so it may add a boxed object, as `mark_rejected` runs before `resolve` checks `_done` (index.js:161).
  - `CountIn` with an array id outside the heap skips the store but still counts down, and can still resolve the root.
  - `Resolve` on a child whose parent id does not exist settles the link and skips only the scheduling of its tail.
- That `Promise.all([])` never resolves is stated in two parts. `Combinators.All` states that no collector is attached and the countdown starts at zero. `PromiseProperties.ExhaustedCountdownNeverSettles` states that a countdown at zero never settles the root. That no other code holds the root's `resolve` is not stated.
- Engine.CallStored: its contract states only that settlements are kept. What it does for a stored `wrap` and for a stored tail is stated by `PromiseProperties.RejectionForwarded` and `PromiseProperties.LateRejectRunsStoredTail`.
- Engine.Step: its own contract states only that settlements are kept and that an empty queue is a no-op. What a step does with a tail task or a `wrap` task at the head of a queue of any length is stated by `Engine.StepRunsTail` and `Engine.StepRunsWrap`.
- Engine.Build: its contract states only that a fresh engine is empty.

=== FILE: combinators.dfy ===
/** The engine's entry points (index.js:221-276): a chain started on one
    stage, `Promise` with its executor capabilities, and the combinators
    `Promise.resolve`, `Promise.reject`, `Promise.race` and `Promise.all`,
    all derived from the one `chained` primitive. */
module Combinators {
  import opened Values
  import opened Engine

  /** `chain[m](g)` (index.js:221-223): the first link of a new chain, whose
      handler goes straight to stage `m`'s scheduler. */
  function Start(w: World, m: string, g: Callable): (r: (World, nat))
    requires m in w.stages
    ensures Progress(w, r.0) && SameStatus(w, r.0)
    ensures r.1 == |w.links| && |r.0.links| == |w.links| + 1
    ensures !r.0.links[r.1].done && r.0.links[r.1].body == Call(g)
    ensures Queue(r.0, m) == Queue(w, m) + [RunWrap(r.1)]
    ensures forall m' :: m' != m ==> Queue(r.0, m') == Queue(w, m')
  {
    NewLink(w, OnStage(m), Call(g))
  }

  /** A stage method called on a chain proxy the caller holds. */
  function Chain(w: World, p: nat, m: string, g: Callable, rec: Option<Callable>): (r: (World, nat))
    requires m in w.stages && p < |w.links|
    ensures Progress(w, r.0) && SameStatus(w, r.0)
    ensures |w.links| <= r.1 < |r.0.links| && !r.0.links[r.1].done
  {
    Attach(w, p, m, g, rec)
  }

  /** `Promise(f)` before `f` runs (index.js:225-231): a root link whose
      handler is `ID` and whose scheduler stores the task it gets into the
      root's `_fill`, so its `wrap` is kept for the executor instead of being
      queued. The executor's `resolve` and `reject` are
      `ExecResolve(root)` and `ExecReject(root)`, called with `Invoke`. */
  function NewPromise(w: World): (r: (World, nat))
    ensures Progress(w, r.0) && SameStatus(w, r.0)
    ensures r.1 == |w.links| && |r.0.links| == |w.links| + 1
    ensures !r.0.links[r.1].done && r.0.links[r.1].body == Identity && r.0.links[r.1].tail == []
    ensures r.0.links[r.1].sched == StoreInto(r.1)
    ensures r.0.fills == w.fills[r.1 := RunWrap(r.1)]
    ensures r.0.queues == w.queues && r.0.alls == w.alls && r.0.awaiting == w.awaiting
    ensures r.0.links[..|w.links|] == w.links
    ensures |r.0.heap| == |w.heap| + 1 && r.0.heap[..|w.heap|] == w.heap
  {
    NewLink(w, StoreInto(|w.links|), Identity)
  }

  /** A `Promise` root: its handler is `ID` and its scheduler stores into its
      own `_fill`. */
  predicate IsRoot(w: World, r: nat)
  {
    r < |w.links| && w.links[r].body == Identity && w.links[r].sched == StoreInto(r)
  }

  /** `Promise.resolve(x)` (index.js:239-243): `chain.then(() => x)`. */
  function PromiseResolve(w: World, x: Val): (r: (World, nat))
    ensures Progress(w, r.0)
    ensures r.1 == |w.links| && |r.0.links| == |w.links| + 1
    ensures !r.0.links[r.1].done && r.0.links[r.1].body == Call(Const(x))
    ensures Queue(r.0, "then") == Queue(w, "then") + [RunWrap(r.1)]
  {
    Start(w, "then", Const(x))
  }

  /** `Promise.reject(x)` (index.js:244-248): `chain.catch(() => mark_rejected(x))`;
      the value is tagged only when the `catch` scheduler runs the task. */
  function PromiseReject(w: World, x: Val): (r: (World, nat))
    ensures Progress(w, r.0)
    ensures r.1 == |w.links| && |r.0.links| == |w.links| + 1
    ensures !r.0.links[r.1].done && r.0.links[r.1].body == Call(Rejecting(x))
    ensures Queue(r.0, "catch") == Queue(w, "catch") + [RunWrap(r.1)]
  {
    Start(w, "catch", Rejecting(x))
  }

  /** Id of the `then` child that `Promise.race`/`Promise.all` attach to the
      `k`-th input they visit, given the root id; its `catch` child follows it. */
  function Visit(root: nat, k: nat): nat
  {
    root + 1 + 2 * k
  }

  /** One round of `Promise.race`'s loop: `list[i].then(resolve, reject)` on
      input `p`. */
  method RaceOne(w: World, p: nat, root: nat) returns (w': World)
    requires p < |w.links|
    ensures Progress(w, w') && SameStatus(w, w')
    ensures |w'.links| == |w.links| + 2 && w'.fills == w.fills
    ensures |w'.heap| >= |w.heap| && w'.heap[..|w.heap|] == w.heap
    ensures w'.links[|w.links|].body == Fill(PassFill, p, ExecResolve(root))
    ensures w'.links[|w.links|].sched == AfterParent(p, "then")
    ensures w'.links[|w.links| + 1].body == Fill(CatchFill, |w.links|, ExecReject(root))
    ensures !w'.links[|w.links|].done && !w'.links[|w.links| + 1].done
  {
    w' := Attach(w, p, "then", ExecResolve(root), Some(ExecReject(root))).0;
  }

  /** The pairs `Promise.race` attached in its first `cnt` rounds; round `k`
      visits input `|list| - 1 - k`. */
  predicate Racers(w: World, list: seq<nat>, root: nat, cnt: nat)
    requires cnt <= |list| && Visit(root, cnt) <= |w.links|
  {
    forall k :: 0 <= k < cnt ==>
      && w.links[Visit(root, k)].body == Fill(PassFill, list[|list| - 1 - k], ExecResolve(root))
      && w.links[Visit(root, k)].sched == AfterParent(list[|list| - 1 - k], "then")
      && w.links[Visit(root, k) + 1].body == Fill(CatchFill, Visit(root, k), ExecReject(root))
      && !w.links[Visit(root, k)].done && !w.links[Visit(root, k) + 1].done
  }

  /** A later round keeps the pairs of the earlier ones and adds its own. */
  lemma RacersGrow(w: World, w': World, list: seq<nat>, root: nat, cnt: nat)
    requires cnt < |list| && |w.links| == Visit(root, cnt)
    requires Racers(w, list, root, cnt)
    requires Progress(w, w') && SameStatus(w, w') && |w'.links| == |w.links| + 2
    requires w'.links[|w.links|].body == Fill(PassFill, list[|list| - 1 - cnt], ExecResolve(root))
    requires w'.links[|w.links|].sched == AfterParent(list[|list| - 1 - cnt], "then")
    requires w'.links[|w.links| + 1].body == Fill(CatchFill, |w.links|, ExecReject(root))
    requires !w'.links[|w.links|].done && !w'.links[|w.links| + 1].done
    ensures Racers(w', list, root, cnt + 1)
  {
    forall k | 0 <= k < cnt
      ensures w'.links[Visit(root, k)].body == w.links[Visit(root, k)].body
      ensures w'.links[Visit(root, k)].sched == w.links[Visit(root, k)].sched
      ensures w'.links[Visit(root, k) + 1].body == w.links[Visit(root, k) + 1].body
    {
      assert Keeps(w.links[Visit(root, k)], w'.links[Visit(root, k)]);
      assert Keeps(w.links[Visit(root, k) + 1], w'.links[Visit(root, k) + 1]);
    }
  }

  /** `Promise.race(list)` (index.js:249-257): a `Promise` whose executor
      calls `list[i].then(resolve, reject)` for i from the last input down
      to the first. The root's `wrap` ignores every call after the first
      settlement, so the first input to settle wins. */
  method Race(w: World, list: seq<nat>) returns (w': World, root: nat)
    requires forall i :: 0 <= i < |list| ==> list[i] < |w.links|
    ensures Progress(w, w') && SameStatus(w, w')
    ensures root == |w.links| && |w'.links| == |w.links| + 1 + 2 * |list|
    ensures IsRoot(w', root) && !w'.links[root].done
    ensures w'.fills == w.fills[root := RunWrap(root)]
    ensures |w'.heap| >= |w.heap| && w'.heap[..|w.heap|] == w.heap
    ensures forall k :: 0 <= k < |list| ==>
      && w'.links[Visit(root, k)].body == Fill(PassFill, list[|list| - 1 - k], ExecResolve(root))
      && w'.links[Visit(root, k)].sched == AfterParent(list[|list| - 1 - k], "then")
      && w'.links[Visit(root, k) + 1].body == Fill(CatchFill, Visit(root, k), ExecReject(root))
      && !w'.links[Visit(root, k)].done && !w'.links[Visit(root, k) + 1].done
  {
    var started := NewPromise(w);
    var w1 := started.0;
    root := started.1;
    w' := w1;
    var n := |list|;
    while n > 0
      invariant 0 <= n <= |list|
      invariant Progress(w1, w') && SameStatus(w1, w')
      invariant |w'.links| == Visit(root, |list| - n)
      invariant w'.fills == w1.fills
      invariant |w'.heap| >= |w1.heap| && w'.heap[..|w1.heap|] == w1.heap
      invariant Racers(w', list, root, |list| - n)
    {
      var before := w';
      w' := RaceOne(w', list[n - 1], root);
      RacersGrow(before, w', list, root, |list| - n);
      ProgressTrans(w1, before, w');
      SameStatusTrans(w1, before, w');
      assert w'.heap[..|w1.heap|] == w'.heap[..|before.heap|][..|w1.heap|];
      n := n - 1;
    }
    assert Racers(w', list, root, |list|);
    assert Keeps(w1.links[root], w'.links[root]);
    assert w'.heap[..|w.heap|] == w'.heap[..|w1.heap|][..|w.heap|];
    ProgressTrans(w, w1, w');
    SameStatusTrans(w, w1, w');
  }

  /** An array of `n` holes, as `Array(length)` creates it. */
  function Holes(n: nat): (elems: seq<Val>)
    ensures |elems| == n && forall i :: 0 <= i < n ==> elems[i] == Nullish
  {
    seq(n, _ => Nullish)
  }

  /** One round of `Promise.all`'s loop: `list[i].then(collect(i), reject)`
      on input `p`. */
  method CollectOne(w: World, p: nat, root: nat, a: nat, i: nat) returns (w': World)
    requires p < |w.links|
    ensures Progress(w, w') && SameStatus(w, w')
    ensures |w'.links| == |w.links| + 2
    ensures w'.fills == w.fills && w'.alls == w.alls
    ensures |w'.heap| >= |w.heap| && w'.heap[..|w.heap|] == w.heap
    ensures w'.links[|w.links|].body == Fill(PassFill, p, Collect(a, i))
    ensures w'.links[|w.links|].sched == AfterParent(p, "then")
    ensures w'.links[|w.links| + 1].body == Fill(CatchFill, |w.links|, ExecReject(root))
    ensures !w'.links[|w.links|].done && !w'.links[|w.links| + 1].done
  {
    w' := Attach(w, p, "then", Collect(a, i), Some(ExecReject(root))).0;
  }

  /** The collector pairs `Promise.all` attached for the inputs before `n`. */
  predicate Collectors(w: World, base: nat, list: seq<nat>, root: nat, a: nat, n: nat)
    requires n <= |list| && base + 2 * n <= |w.links|
  {
    forall j :: 0 <= j < n ==>
      && w.links[base + 2 * j].body == Fill(PassFill, list[j], Collect(a, j))
      && w.links[base + 2 * j].sched == AfterParent(list[j], "then")
      && w.links[base + 2 * j + 1].body == Fill(CatchFill, base + 2 * j, ExecReject(root))
      && !w.links[base + 2 * j].done && !w.links[base + 2 * j + 1].done
  }

  /** A later round keeps the collectors of the earlier ones and adds its own. */
  lemma CollectorsGrow(w: World, w': World, base: nat, list: seq<nat>, root: nat, a: nat, n: nat)
    requires n < |list| && |w.links| == base + 2 * n
    requires Collectors(w, base, list, root, a, n)
    requires Progress(w, w') && SameStatus(w, w') && |w'.links| == |w.links| + 2
    requires w'.links[|w.links|].body == Fill(PassFill, list[n], Collect(a, n))
    requires w'.links[|w.links|].sched == AfterParent(list[n], "then")
    requires w'.links[|w.links| + 1].body == Fill(CatchFill, |w.links|, ExecReject(root))
    requires !w'.links[|w.links|].done && !w'.links[|w.links| + 1].done
    ensures Collectors(w', base, list, root, a, n + 1)
  {
    forall j | 0 <= j < n
      ensures w'.links[base + 2 * j].body == w.links[base + 2 * j].body
      ensures w'.links[base + 2 * j].sched == w.links[base + 2 * j].sched
      ensures w'.links[base + 2 * j + 1].body == w.links[base + 2 * j + 1].body
    {
      assert Keeps(w.links[base + 2 * j], w'.links[base + 2 * j]);
      assert Keeps(w.links[base + 2 * j + 1], w'.links[base + 2 * j + 1]);
    }
  }

  /** The loop of `Promise.all`'s executor (index.js:264-274): for each input
      in order, `list[i].then(collect(i), reject)`. */
  method CollectEach(w: World, list: seq<nat>, root: nat, a: nat) returns (w': World)
    requires forall i :: 0 <= i < |list| ==> list[i] < |w.links|
    ensures Progress(w, w') && SameStatus(w, w')
    ensures |w'.links| == |w.links| + 2 * |list|
    ensures w'.fills == w.fills && w'.alls == w.alls
    ensures |w'.heap| >= |w.heap| && w'.heap[..|w.heap|] == w.heap
    ensures forall i :: 0 <= i < |list| ==>
      && w'.links[|w.links| + 2 * i].body == Fill(PassFill, list[i], Collect(a, i))
      && w'.links[|w.links| + 2 * i].sched == AfterParent(list[i], "then")
      && w'.links[|w.links| + 2 * i + 1].body == Fill(CatchFill, |w.links| + 2 * i, ExecReject(root))
      && !w'.links[|w.links| + 2 * i].done && !w'.links[|w.links| + 2 * i + 1].done
  {
    w' := w;
    var i := 0;
    while i < |list|
      invariant 0 <= i <= |list|
      invariant Progress(w, w') && SameStatus(w, w')
      invariant |w'.links| == |w.links| + 2 * i
      invariant w'.fills == w.fills && w'.alls == w.alls
      invariant |w'.heap| >= |w.heap| && w'.heap[..|w.heap|] == w.heap
      invariant Collectors(w', |w.links|, list, root, a, i)
    {
      var before := w';
      w' := CollectOne(w', list[i], root, a, i);
      CollectorsGrow(before, w', |w.links|, list, root, a, i);
      ProgressTrans(w, before, w');
      SameStatusTrans(w, before, w');
      assert w'.heap[..|w.heap|] == w'.heap[..|before.heap|][..|w.heap|];
      i := i + 1;
    }
    assert Collectors(w', |w.links|, list, root, a, |list|);
  }

  /** `Promise.all(list)` (index.js:258-276): a `Promise` whose executor
      allocates an array of the inputs' length and, for each input in order,
      attaches `then` with a closure that stores the fulfilment at the
      input's index and counts down, and with the executor's `reject` as the
      recovery handler. With no inputs nothing is attached at all. */
  method All(w: World, list: seq<nat>) returns (w': World, root: nat, a: nat)
    requires forall i :: 0 <= i < |list| ==> list[i] < |w.links|
    ensures Progress(w, w') && SameStatus(w, w')
    ensures root == |w.links| && |w'.links| == |w.links| + 1 + 2 * |list|
    ensures IsRoot(w', root) && !w'.links[root].done
    ensures w'.fills == w.fills[root := RunWrap(root)]
    ensures a == |w.alls| && |w'.alls| == |w.alls| + 1
    ensures w'.alls[a] == Countdown(|w.heap| + 1, |list|, root)
    ensures |w'.heap| > |w.heap| + 1 && w'.heap[|w.heap| + 1] == Box(Array(Holes(|list|)), false)
    ensures w'.heap[..|w.heap|] == w.heap
    ensures forall i :: 0 <= i < |list| ==>
      && w'.links[Visit(root, i)].body == Fill(PassFill, list[i], Collect(a, i))
      && w'.links[Visit(root, i)].sched == AfterParent(list[i], "then")
      && w'.links[Visit(root, i) + 1].body == Fill(CatchFill, Visit(root, i), ExecReject(root))
      && !w'.links[Visit(root, i)].done && !w'.links[Visit(root, i) + 1].done
  {
    var started := NewPromise(w);
    var w1 := started.0;
    root := started.1;
    a := |w1.alls|;
    var arr := |w1.heap|;
    var w2 := w1.(heap := w1.heap + [Box(Array(Holes(|list|)), false)],
                  alls := w1.alls + [Countdown(arr, |list|, root)]);
    assert Progress(w1, w2);
    w' := CollectEach(w2, list, root, a);
    assert w'.heap[arr] == w'.heap[..|w2.heap|][arr];
    assert w'.heap[..|w.heap|] == w'.heap[..|w2.heap|][..|w1.heap|][..|w.heap|];
    ProgressTrans(w1, w2, w');
    ProgressTrans(w, w1, w');
    assert Keeps(w1.links[root], w'.links[root]);
  }
}

=== FILE: engine.dfy ===
/** The chaining engine built by `chained` (index.js:144-216) and wired by
    the module entry point (index.js:133-138, 221-238), as a transition system.

    Every caller-supplied scheduler is a FIFO queue of tasks, one queue per
    stage name; handing a task to a scheduler appends it to that queue, and
    the caller drains the queues one task at a time with `Step`. Links live in
    a store indexed by link id, objects (chain proxies, boxed rejections, the
    array of `Promise.all`) in a heap indexed by object id. */
module Engine {
  import opened Values

  /** The stage names of the scheduler map (`Object.keys(sync)`). Adoption of
      a thenable, the two-argument call form and the combinators call `then`
      and `catch` on chain proxies, so an engine always has both. */
  type Stages = s: seq<string> | "then" in s && "catch" in s witness ["then", "catch"]

  /** A task handed to a scheduler: a link's `wrap`, or a snapshot of a
      link's pending tail `_chain`. */
  datatype Task = RunWrap(link: nat) | RunTail(entries: seq<Request>)

  /** One deferred action on a pending tail: `sync[stage](task)`. */
  datatype Request = Request(stage: string, task: Task)

  /** The `schedule` function a link was built with. */
  datatype Sched =
    | OnStage(m: string)                // `chain[m] = chained(sync[m])`
    | AfterParent(parent: nat, m: string) // the dispatcher's child scheduler (index.js:199-212)
    | StoreInto(root: nat)              // `Promise`'s `(fill) => _fill = fill` (index.js:228-230)

  /** Which `fill` adapter the dispatcher builds for a stage name (index.js:181-197). */
  datatype FillKind = FinallyFill | CatchFill | PassFill

  /** Functions a link can call: the caller's handlers and the engine's own
      closures that get passed around as handlers. */
  datatype Callable =
    | User(id: nat)                 // a handler written by the caller
    | Const(v: Val)                 // `() => x` of `Promise.resolve`
    | Rejecting(v: Val)             // `() => mark_rejected(x)` of `Promise.reject`
    | ExecResolve(root: nat)        // the executor's `resolve`: the root's `wrap`
    | ExecReject(root: nat)         // the executor's `reject`: `(x) => _fill(mark_rejected(x))`
    | Resolver(link: nat)           // a link's `resolve`, handed to a thenable
    | Rejecter(link: nat)           // a link's `reject`, handed to a thenable
    | Collect(all: nat, index: nat) // `Promise.all`'s per-index closure

  /** The handler `f` a link's `wrap` calls. */
  datatype Body =
    | Identity                                    // `ID`, the handler of a `Promise` root
    | Call(g: Callable)                           // `chain[m](g)`: a chain's first link
    | Fill(kind: FillKind, parent: nat, g: Callable) // a child made by the dispatcher

  /** The closure state of one `chained(schedule)(f)` call: `_done`,
      `_result`, `_chain`, plus what it was built from and its proxy object. */
  datatype Link = Link(sched: Sched, body: Body, done: bool, result: Val, tail: seq<Request>, proxy: nat)

  /** The closure state of one `Promise.all` call: the array, the countdown
      `length`, and the `Promise` root whose executor it runs in. */
  datatype Countdown = Countdown(arr: nat, remaining: int, root: nat)

  /** The caller's handlers, as pure functions of their arguments. */
  type UserFns = (nat, seq<Val>) -> Val

  datatype World = World(
    stages: Stages,
    queues: map<string, seq<Task>>,
    links: seq<Link>,
    heap: Heap,
    fills: map<nat, Task>,   // the `_fill` variable of each `Promise` root
    alls: seq<Countdown>,
    awaiting: set<nat>)      // links that handed resolve/reject to a foreign thenable

  /** A fresh engine for a scheduler map with the given stage names. */
  function Build(stages: Stages): (w: World)
    ensures forall m :: Queue(w, m) == []
    ensures |w.links| == 0 && |w.heap| == 0
  {
    World(stages, map[], [], [], map[], [], {})
  }

  function Queue(w: World, m: string): seq<Task>
  {
    if m in w.queues then w.queues[m] else []
  }

  function Arg0(args: seq<Val>): Val
  {
    if |args| > 0 then args[0] else Nullish
  }

  /** The `fill` adapter chosen by name: only `finally` and `catch` are special (index.js:181-197). */
  function FillFor(m: string): (k: FillKind)
    ensures k == FinallyFill <==> m == "finally"
    ensures k == CatchFill <==> m == "catch"
  {
    if m == "finally" then FinallyFill else if m == "catch" then CatchFill else PassFill
  }

  /** The tasks a tail hands to stage `m`, in tail order. */
  function ForStage(es: seq<Request>, m: string): seq<Task>
  {
    if es == [] then []
    else (if es[0].stage == m then [es[0].task] else []) + ForStage(es[1..], m)
  }

  /** Link state that no transition takes back: how the link was built, and,
      once it is done, that it is done and which value it settled with. */
  predicate Keeps(a: Link, b: Link)
  {
    && b.sched == a.sched && b.body == a.body && b.proxy == a.proxy
    && (a.done ==> b.done && b.result == a.result)
  }

  /** Link `l` exists and has not settled yet: its `_done` is false. */
  predicate Pending(w: World, l: nat)
  {
    l < |w.links| && !w.links[l].done
  }

  /** Settling link `l` now hands its tail straight to a stage scheduler,
      the one of stage `Link.sched.m`: `l` is a chain's first link, or a
      child whose parent is already done (index.js:156, 199-201). */
  predicate FlushesAt(w: World, l: nat)
  {
    && l < |w.links|
    && match w.links[l].sched
       case OnStage(_) => true
       case AfterParent(p, _) => p < |w.links| && w.links[p].done
       case StoreInto(_) => false
  }

  /** Link `l` is a child whose parent, another link, is still pending:
      settling `l` now appends its tail to the parent's (index.js:202-211). */
  predicate WaitsOnParent(w: World, l: nat)
  {
    && l < |w.links| && w.links[l].sched.AfterParent?
    && w.links[l].sched.parent < |w.links| && w.links[l].sched.parent != l
    && !w.links[w.links[l].sched.parent].done
  }

  /** What every transition preserves: stores only grow, links keep their
      identity, and settlement is monotone and final. */
  predicate Progress(w: World, w': World)
  {
    && w'.stages == w.stages
    && |w.links| <= |w'.links|
    && |w.heap| <= |w'.heap|
    && |w.alls| <= |w'.alls|
    && w.awaiting <= w'.awaiting
    && (forall l :: 0 <= l < |w.links| ==> Keeps(w.links[l], w'.links[l]))
    && (forall a :: 0 <= a < |w.alls| ==> w'.alls[a].arr == w.alls[a].arr && w'.alls[a].root == w.alls[a].root)
  }

  /** No link of `w` changes whether it is done or what it settled with. */
  predicate SameStatus(w: World, w': World)
  {
    && |w.links| <= |w'.links|
    && forall l :: 0 <= l < |w.links| ==> w'.links[l].done == w.links[l].done && w'.links[l].result == w.links[l].result
  }

  lemma ProgressTrans(w0: World, w1: World, w2: World)
    requires Progress(w0, w1) && Progress(w1, w2)
    ensures Progress(w0, w2)
  {
    forall l | 0 <= l < |w0.links|
      ensures Keeps(w0.links[l], w2.links[l])
    {
      assert Keeps(w0.links[l], w1.links[l]);
      assert Keeps(w1.links[l], w2.links[l]);
    }
  }

  lemma SameStatusTrans(w0: World, w1: World, w2: World)
    requires SameStatus(w0, w1) && SameStatus(w1, w2)
    ensures SameStatus(w0, w2)
  {
  }

  function Enqueue(w: World, m: string, t: Task): (w': World)
    ensures Queue(w', m) == Queue(w, m) + [t]
    ensures forall m' :: m' != m ==> Queue(w', m') == Queue(w, m')
    ensures w' == w.(queues := w'.queues)
  {
    w.(queues := w.queues[m := Queue(w, m) + [t]])
  }

  /** Runs a tail: every deferred `sync[stage](task)` in order (index.js:206-211). */
  function Flush(w: World, es: seq<Request>): (w': World)
    ensures forall m :: Queue(w', m) == Queue(w, m) + ForStage(es, m)
    ensures w' == w.(queues := w'.queues)
    decreases |es|
  {
    if es == [] then w
    else
      var w1 := Enqueue(w, es[0].stage, es[0].task);
      var w2 := Flush(w1, es[1..]);
      FlushStep(w, w1, w2, es);
      w2
  }

  /** The queues after the first entry of a tail and after the rest compose. */
  lemma FlushStep(w: World, w1: World, w2: World, es: seq<Request>)
    requires es != []
    requires Queue(w1, es[0].stage) == Queue(w, es[0].stage) + [es[0].task]
    requires forall m :: m != es[0].stage ==> Queue(w1, m) == Queue(w, m)
    requires forall m :: Queue(w2, m) == Queue(w1, m) + ForStage(es[1..], m)
    ensures forall m :: Queue(w2, m) == Queue(w, m) + ForStage(es, m)
  {
    forall m
      ensures Queue(w2, m) == Queue(w, m) + ForStage(es, m)
    {
      FlushStepAt(Queue(w, m), Queue(w1, m), Queue(w2, m), es, m);
    }
  }

  /** `FlushStep` for the queue of one stage `m`. */
  lemma FlushStepAt(q: seq<Task>, q1: seq<Task>, q2: seq<Task>, es: seq<Request>, m: string)
    requires es != []
    requires q1 == q + (if es[0].stage == m then [es[0].task] else [])
    requires q2 == q1 + ForStage(es[1..], m)
    ensures q2 == q + ForStage(es, m)
  {
    var head := if es[0].stage == m then [es[0].task] else [];
    var rest := ForStage(es[1..], m);
    assert ForStage(es, m) == head + rest;
    assert (q + head) + rest == q + (head + rest);
  }

  /** `schedule(t)` for each kind of scheduler a link can be built with. A
      child whose parent is done goes straight to the target stage's
      scheduler; one whose parent is pending is appended to the parent's tail
      (index.js:199-212). */
  function Schedule(w: World, s: Sched, t: Task): (w': World)
    requires s.AfterParent? ==> s.parent < |w.links|
    ensures Progress(w, w') && |w'.links| == |w.links|
    ensures w'.heap == w.heap && w'.alls == w.alls && w'.awaiting == w.awaiting
    ensures s.OnStage? ==> w' == Enqueue(w, s.m, t)
    ensures s.AfterParent? && w.links[s.parent].done ==> w' == Enqueue(w, s.m, t)
    ensures s.AfterParent? && !w.links[s.parent].done ==>
      w' == w.(links := w.links[s.parent := w.links[s.parent].(tail := w.links[s.parent].tail + [Request(s.m, t)])])
    ensures s.StoreInto? ==> w' == w.(fills := w.fills[s.root := t])
  {
    match s
    case OnStage(m) => Enqueue(w, m, t)
    case AfterParent(p, m) =>
      if w.links[p].done then Enqueue(w, m, t)
      else w.(links := w.links[p := w.links[p].(tail := w.links[p].tail + [Request(m, t)])])
    case StoreInto(r) => w.(fills := w.fills[r := t])
  }

  /** `chained(schedule)(f)` (index.js:145-175): a pending link with an empty
      tail and a proxy object, whose `wrap` is handed to `schedule` at once. */
  function NewLink(w: World, s: Sched, b: Body): (r: (World, nat))
    requires s.AfterParent? ==> s.parent < |w.links|
    ensures r.1 == |w.links| && |r.0.links| == |w.links| + 1
    ensures Progress(w, r.0) && SameStatus(w, r.0)
    ensures r.0.links[r.1] == Link(s, b, false, Nullish, [], |w.heap|)
    ensures |r.0.heap| == |w.heap| + 1 && r.0.heap[|w.heap|] == Box(Proxy(r.1), false)
    ensures r.0.heap[..|w.heap|] == w.heap && r.0.alls == w.alls && r.0.awaiting == w.awaiting
    ensures s.OnStage? ==>
      r.0.links[..|w.links|] == w.links && r.0.fills == w.fills
      && Queue(r.0, s.m) == Queue(w, s.m) + [RunWrap(r.1)]
      && (forall m :: m != s.m ==> Queue(r.0, m) == Queue(w, m))
    ensures s.AfterParent? && w.links[s.parent].done ==>
      r.0.links[..|w.links|] == w.links && r.0.fills == w.fills
      && Queue(r.0, s.m) == Queue(w, s.m) + [RunWrap(r.1)]
      && (forall m :: m != s.m ==> Queue(r.0, m) == Queue(w, m))
    ensures s.AfterParent? && !w.links[s.parent].done ==>
      r.0.queues == w.queues && r.0.fills == w.fills
      && r.0.links[s.parent].tail == w.links[s.parent].tail + [Request(s.m, RunWrap(r.1))]
      && (forall l :: 0 <= l < |w.links| && l != s.parent ==> r.0.links[l] == w.links[l])
    ensures s.StoreInto? ==>
      r.0.queues == w.queues && r.0.links[..|w.links|] == w.links
      && r.0.fills == w.fills[s.root := RunWrap(r.1)]
  {
    var id := |w.links|;
    var w1 := w.(links := w.links + [Link(s, b, false, Nullish, [], |w.heap|)],
                 heap := w.heap + [Box(Proxy(id), false)]);
    (Schedule(w1, s, RunWrap(id)), id)
  }

  /** The dispatcher without a recovery handler (index.js:181-213): a child
      link whose handler is the `fill` adapter for stage `m` over parent `p`. */
  function Dispatch(w: World, p: nat, m: string, g: Callable): (r: (World, nat))
    requires p < |w.links|
    ensures r.1 == |w.links| && |r.0.links| == |w.links| + 1
    ensures Progress(w, r.0) && SameStatus(w, r.0)
    ensures r.0.links[r.1] == Link(AfterParent(p, m), Fill(FillFor(m), p, g), false, Nullish, [], |w.heap|)
    ensures w.links[p].done ==>
      r.0.links[..|w.links|] == w.links
      && Queue(r.0, m) == Queue(w, m) + [RunWrap(r.1)]
      && (forall m' :: m' != m ==> Queue(r.0, m') == Queue(w, m'))
    ensures !w.links[p].done ==>
      r.0.queues == w.queues
      && r.0.links[p].tail == w.links[p].tail + [Request(m, RunWrap(r.1))]
      && (forall l :: 0 <= l < |w.links| && l != p ==> r.0.links[l] == w.links[l])
    ensures r.0.fills == w.fills && r.0.alls == w.alls && r.0.awaiting == w.awaiting
    ensures |r.0.heap| == |w.heap| + 1 && r.0.heap[..|w.heap|] == w.heap
  {
    NewLink(w, AfterParent(p, m), Fill(FillFor(m), p, g))
  }

  /** A stage method called on the proxy of link `p` (index.js:176-214). With
      a recovery handler the call is rewritten as `this._h(m, g).catch(rec)`:
      the recovery is always a separate `catch` child of the first child. */
  function Attach(w: World, p: nat, m: string, g: Callable, rec: Option<Callable>): (r: (World, nat))
    requires p < |w.links|
    ensures Progress(w, r.0) && SameStatus(w, r.0)
    ensures r.0.fills == w.fills && r.0.alls == w.alls && r.0.awaiting == w.awaiting
    ensures |r.0.heap| >= |w.heap| && r.0.heap[..|w.heap|] == w.heap
    ensures |w.links| <= r.1 < |r.0.links| && !r.0.links[r.1].done
    ensures rec.None? ==> r == Dispatch(w, p, m, g)
    ensures rec.Some? ==>
      && r.1 == |w.links| + 1 && |r.0.links| == |w.links| + 2
      && r.0.links[|w.links|].sched == AfterParent(p, m)
      && r.0.links[|w.links|].body == Fill(FillFor(m), p, g)
      && r.0.links[r.1] == Link(AfterParent(|w.links|, "catch"), Fill(CatchFill, |w.links|, rec.value), false, Nullish, [], |w.heap| + 1)
      && r.0.links[|w.links|].tail == [Request("catch", RunWrap(r.1))]
      && !r.0.links[|w.links|].done
  {
    if rec.None? then Dispatch(w, p, m, g)
    else
      var (w1, c1) := Dispatch(w, p, m, g);
      var r := Dispatch(w1, c1, "catch", rec.value);
      ProgressTrans(w, w1, r.0);
      r
  }

  /** A link's `resolve` (index.js:153-159): the first call marks the link
      done, hands the current tail to the link's own scheduler, and only then
      records the value; every later call changes nothing and returns
      `undefined`. */
  function Resolve(w: World, l: nat, v: Val): (r: (World, Val))
    ensures Progress(w, r.0)
    ensures Pending(w, l) ==>
      && r.0.links[l].done && r.0.links[l].result == v && r.1 == v
      && |r.0.links| == |w.links| && r.0.heap == w.heap && r.0.alls == w.alls && r.0.awaiting == w.awaiting
      && (forall j :: 0 <= j < |w.links| && j != l ==> r.0.links[j].done == w.links[j].done)
    ensures !Pending(w, l) ==> r == (w, Nullish)
    ensures Pending(w, l) && FlushesAt(w, l) ==>
      && Queue(r.0, w.links[l].sched.m) == Queue(w, w.links[l].sched.m) + [RunTail(w.links[l].tail)]
      && (forall m :: m != w.links[l].sched.m ==> Queue(r.0, m) == Queue(w, m))
      && r.0.fills == w.fills
    ensures Pending(w, l) && WaitsOnParent(w, l) ==>
      && r.0.queues == w.queues && r.0.fills == w.fills
      && r.0.links[w.links[l].sched.parent].tail
         == w.links[w.links[l].sched.parent].tail + [Request(w.links[l].sched.m, RunTail(w.links[l].tail))]
    ensures Pending(w, l) && w.links[l].sched.StoreInto? ==>
      r.0.queues == w.queues && r.0.fills == w.fills[w.links[l].sched.root := RunTail(w.links[l].tail)]
  {
    if l >= |w.links| || w.links[l].done then (w, Nullish)
    else
      var k := w.links[l];
      var w1 := w.(links := w.links[l := k.(done := true)]);
      var w2 := if k.sched.AfterParent? && k.sched.parent >= |w.links| then w1
                else Schedule(w1, k.sched, RunTail(k.tail));
      (w2.(links := w2.links[l := w2.links[l].(result := v)]), v)
  }

  /** A link's `reject` (index.js:160-162): `resolve(mark_rejected(error))`.
      The argument is tagged before `resolve` looks at `_done`, so the tag is
      set even when the link is already settled. */
  function Reject(w: World, l: nat, e: Val): (r: (World, Val))
    ensures Progress(w, r.0)
    ensures Pending(w, l) ==>
      r.0.links[l].done && IsRejected(r.0.heap, r.0.links[l].result) && r.1 == r.0.links[l].result
    // an object is settled as itself, anything else as a fresh box of it
    ensures Pending(w, l) && Live(w.heap, e) ==> r.0.links[l].result == e
    ensures Pending(w, l) && !Live(w.heap, e) ==>
      r.0.links[l].result == Ref(|w.heap|) && r.0.heap[|w.heap|].kind == BoxOf(e)
    // the tail goes where `resolve` sends it
    ensures Pending(w, l) && FlushesAt(w, l) ==>
      && Queue(r.0, w.links[l].sched.m) == Queue(w, w.links[l].sched.m) + [RunTail(w.links[l].tail)]
      && (forall m :: m != w.links[l].sched.m ==> Queue(r.0, m) == Queue(w, m))
      && r.0.fills == w.fills
    ensures Pending(w, l) && WaitsOnParent(w, l) ==>
      && r.0.queues == w.queues && r.0.fills == w.fills
      && r.0.links[w.links[l].sched.parent].tail
         == w.links[w.links[l].sched.parent].tail + [Request(w.links[l].sched.m, RunTail(w.links[l].tail))]
    ensures Pending(w, l) && w.links[l].sched.StoreInto? ==>
      r.0.queues == w.queues && r.0.fills == w.fills[w.links[l].sched.root := RunTail(w.links[l].tail)]
    ensures !Pending(w, l) ==>
      r.0.links == w.links && r.0.queues == w.queues && r.1 == Nullish
  {
    var (h, e') := MarkRejected(w.heap, e);
    Resolve(w.(heap := h), l, e')
  }

  /** `result.then(resolve, reject)` (index.js:167-168). On a chain proxy this
      is the two-argument call form, so it attaches a `then` child calling the
      adopting link's `resolve` and a `catch` child of that calling its
      `reject`. A foreign thenable is remembered; it settles the link later
      through `ForeignSettle`. */
  function Adopt(w: World, l: nat, v: Val): (w': World)
    requires Thenable(w.heap, v)
    ensures Progress(w, w')
    ensures SameStatus(w, w') && w'.heap[..|w.heap|] == w.heap
    // a chain proxy of link `l2`: a `then` child of `l2` calling `resolve`,
    // and a `catch` child of that child calling `reject`
    ensures w.heap[v.id].kind.Proxy? && w.heap[v.id].kind.link < |w.links| ==>
      && |w'.links| == |w.links| + 2
      && w'.links[|w.links|].body == Fill(PassFill, w.heap[v.id].kind.link, Resolver(l))
      && w'.links[|w.links|].sched == AfterParent(w.heap[v.id].kind.link, "then")
      && w'.links[|w.links| + 1].body == Fill(CatchFill, |w.links|, Rejecter(l))
      && !w'.links[|w.links|].done && !w'.links[|w.links| + 1].done
    // a foreign thenable: the link waits for it
    ensures w.heap[v.id].kind.Foreign? ==> w' == w.(awaiting := w.awaiting + {l})
  {
    match w.heap[v.id].kind
    case Proxy(l2) =>
      if l2 < |w.links| then Attach(w, l2, "then", Resolver(l), Some(Rejecter(l))).0 else w
    case Foreign => w.(awaiting := w.awaiting + {l})
  }

  /** What `wrap` does with its handler's return value (index.js:167-171):
      adopt a thenable, settle with anything else. */
  function Settle(w: World, l: nat, v: Val): (w': World)
    ensures Progress(w, w')
    ensures Thenable(w.heap, v) ==> w' == Adopt(w, l, v)
    ensures !Thenable(w.heap, v) && Pending(w, l) ==>
      w'.links[l].done && w'.links[l].result == v
    ensures !Thenable(w.heap, v) && !Pending(w, l) ==> w' == w
  {
    if Thenable(w.heap, v) then Adopt(w, l, v) else Resolve(w, l, v).0
  }

  /** The `wrap` of a link whose handler is `ID`: the function a `Promise`
      executor receives as `resolve` (index.js:163-174, 225-230). */
  function WrapIdentity(w: World, r: nat, x: Val): (res: (World, Val))
    ensures Progress(w, res.0)
    ensures Pending(w, r) && !Thenable(w.heap, x) ==>
      res.0.links[r].done && res.0.links[r].result == x && res.1 == x
    ensures Pending(w, r) ==> res == (Settle(w, r, x), x)
    ensures !Pending(w, r) ==> res == (w, Nullish)
  {
    if Pending(w, r) then (Settle(w, r, x), x) else (w, Nullish)
  }

  /** `_fill(x)` of a `Promise` root (index.js:233-235): whatever the root's
      scheduler stored last. Before the root settles that is its `wrap`;
      afterwards it is the root's tail, which this call then runs. A tail
      built from `ID` alone returns its argument, a composed one `undefined`. */
  function CallStored(w: World, root: nat, x: Val): (r: (World, Val))
    ensures Progress(w, r.0)
  {
    if root !in w.fills then (w, x)
    else
      match w.fills[root]
      case RunWrap(l) => WrapIdentity(w, l, x)
      case RunTail(es) => (Flush(w, es), if es == [] then x else Nullish)
  }

  /** One `Promise.all` fulfilment (index.js:265-272): store the value at its
      index, count down, and resolve the root with the array when the count
      reaches zero. */
  function CountIn(w: World, a: nat, i: nat, x: Val): (r: (World, Val))
    ensures Progress(w, r.0)
    ensures a < |w.alls| ==> |r.0.alls| == |w.alls| && r.0.alls[a].remaining == w.alls[a].remaining - 1
    ensures a < |w.alls| && w.alls[a].remaining != 1 ==> r.0.links == w.links && r.1 == Nullish
    ensures a < |w.alls| && w.alls[a].remaining == 1 && Pending(w, w.alls[a].root)
      && w.alls[a].arr < |w.heap| && w.heap[w.alls[a].arr].kind.Array?
      ==> r.0.links[w.alls[a].root].done && r.0.links[w.alls[a].root].result == Ref(w.alls[a].arr)
    ensures a < |w.alls| && w.alls[a].arr < |w.heap| && w.heap[w.alls[a].arr].kind.Array? && i < |w.heap[w.alls[a].arr].kind.elems|
      ==> r.0.heap[w.alls[a].arr].kind == Array(w.heap[w.alls[a].arr].kind.elems[i := x])
    ensures a >= |w.alls| ==> r == (w, Nullish)
  {
    if a >= |w.alls| then (w, Nullish)
    else
      var c := w.alls[a];
      var h := if c.arr < |w.heap| && w.heap[c.arr].kind.Array? && i < |w.heap[c.arr].kind.elems|
               then w.heap[c.arr := w.heap[c.arr].(kind := Array(w.heap[c.arr].kind.elems[i := x]))]
               else w.heap;
      var w1 := w.(heap := h, alls := w.alls[a := c.(remaining := c.remaining - 1)]);
      if c.remaining - 1 == 0 then WrapIdentity(w1, c.root, Ref(c.arr)) else (w1, Nullish)
  }

  /** Calls one of the functions a link can hold, returning the new world and
      the call's return value. */
  function Invoke(w: World, u: UserFns, g: Callable, args: seq<Val>): (r: (World, Val))
    ensures Progress(w, r.0)
    ensures g.User? ==> r == (w, u(g.id, args))
    ensures g.Const? ==> r == (w, g.v)
  {
    match g
    case User(id) => (w, u(id, args))
    case Const(v) => (w, v)
    case Rejecting(v) =>
      var (h, v') := MarkRejected(w.heap, v);
      (w.(heap := h), v')
    case ExecResolve(root) => WrapIdentity(w, root, Arg0(args))
    case ExecReject(root) =>
      var (h, x) := MarkRejected(w.heap, Arg0(args));
      CallStored(w.(heap := h), root, x)
    case Resolver(l) => Resolve(w, l, Arg0(args))
    case Rejecter(l) => Reject(w, l, Arg0(args))
    case Collect(a, i) => CountIn(w, a, i, Arg0(args))
  }

  /** The parent's `_result` as the child's `fill` reads it. */
  function ResultOf(w: World, p: nat): Val
  {
    if p < |w.links| then w.links[p].result else Nullish
  }

  /** The per-stage `fill` adapters (index.js:181-197), called with the
      scheduler's argument `x`. None means the adapter threw: reading the
      flag of a `null` or `undefined` parent result is a TypeError. */
  function RunFill(w: World, u: UserFns, k: FillKind, p: nat, g: Callable, x: Val): (r: Option<(World, Val)>)
    ensures r.None? <==> k != FinallyFill && ResultOf(w, p).Nullish?
    ensures r.Some? ==> Progress(w, r.value.0)
    // `finally`: the handler runs with the scheduler's argument only, and the
    // parent's own result is handed on whatever the handler returned.
    ensures k == FinallyFill ==> r == Some((Invoke(w, u, g, [x]).0, ResultOf(Invoke(w, u, g, [x]).0, p)))
    // `catch` on a rejected parent: clear the flag on the parent's own result
    // object, then settle with the handler's return value.
    ensures k == CatchFill && IsRejected(w.heap, ResultOf(w, p)) ==>
      r == Some(Invoke(w.(heap := SetFlag(w.heap, ResultOf(w, p).id, false)), u, g, [ResultOf(w, p), x]))
    // `catch` on a parent that is not rejected: its result, handler not called.
    ensures k == CatchFill && !IsRejected(w.heap, ResultOf(w, p)) && !ResultOf(w, p).Nullish? ==>
      r == Some((w, ResultOf(w, p)))
    // any other stage on a rejected parent: the same rejected object, handler not called.
    ensures k == PassFill && IsRejected(w.heap, ResultOf(w, p)) ==> r == Some((w, ResultOf(w, p)))
    // any other stage otherwise: the handler's return value.
    ensures k == PassFill && !IsRejected(w.heap, ResultOf(w, p)) && !ResultOf(w, p).Nullish? ==>
      r == Some(Invoke(w, u, g, [ResultOf(w, p), x]))
  {
    var pr := ResultOf(w, p);
    match k
    case FinallyFill =>
      var (w1, _) := Invoke(w, u, g, [x]);
      Some((w1, ResultOf(w1, p)))
    case CatchFill =>
      (match ReadFlag(w.heap, pr)
       case None => None
       case Some(flag) =>
         if flag then
           var w1 := w.(heap := SetFlag(w.heap, pr.id, false));
           ProgressTrans(w, w1, Invoke(w1, u, g, [pr, x]).0);
           Some(Invoke(w1, u, g, [pr, x]))
         else Some((w, pr)))
    case PassFill =>
      match ReadFlag(w.heap, pr)
      case None => None
      case Some(flag) => if flag then Some((w, pr)) else Some(Invoke(w, u, g, [pr, x]))
  }

  /** Calls a link's handler `f(...a)` with the scheduler's arguments. */
  function CallBody(w: World, u: UserFns, b: Body, args: seq<Val>): (r: Option<(World, Val)>)
    ensures r.Some? ==> Progress(w, r.value.0)
    // only a stage adapter other than `finally` can throw, and only on a
    // `null`/`undefined` parent result
    ensures r.None? <==> b.Fill? && b.kind != FinallyFill && ResultOf(w, b.parent).Nullish?
    ensures b.Identity? ==> r == Some((w, Arg0(args)))
    ensures b.Call? ==> r == Some(Invoke(w, u, b.g, args))
    ensures b.Fill? ==> r == RunFill(w, u, b.kind, b.parent, b.g, Arg0(args))
  {
    match b
    case Identity => Some((w, Arg0(args)))
    case Call(g) => Some(Invoke(w, u, g, args))
    case Fill(k, p, g) => RunFill(w, u, k, p, g, Arg0(args))
  }

  /** A link's `wrap` (index.js:163-174): nothing once the link is done;
      while it is pending, call the handler once, then adopt a thenable
      result or settle with the result. None means the handler threw. */
  function Wrap(w: World, u: UserFns, l: nat, args: seq<Val>): (r: Option<(World, Val)>)
    ensures r.Some? ==> Progress(w, r.value.0)
    ensures !Pending(w, l) ==> r == Some((w, Nullish))
    ensures Pending(w, l) ==>
      match CallBody(w, u, w.links[l].body, args)
      case None => r.None?
      case Some(called) => r == Some((Settle(called.0, l, called.1), called.1))
  {
    if !Pending(w, l) then Some((w, Nullish))
    else
      match CallBody(w, u, w.links[l].body, args)
      case None => None
      case Some(called) =>
        var (w1, v) := called;
        ProgressTrans(w, w1, Settle(w1, l, v));
        Some((Settle(w1, l, v), v))
  }

  /** The scheduler of stage `m` runs the task at the head of its queue with
      argument `arg`. When the task throws, a scheduler that catches
      (`onThrow == Some(e)`) calls the task's recovery entry `wrap.r`, the
      link's `reject` (index.js:175); one that does not lets the task go. */
  function Step(w: World, u: UserFns, m: string, arg: Val, onThrow: Option<Val>): (w': World)
    ensures Progress(w, w')
    ensures Queue(w, m) == [] ==> w' == w
  {
    var q := Queue(w, m);
    if q == [] then w
    else
      var w0 := w.(queues := w.queues[m := q[1..]]);
      match q[0]
      case RunTail(es) => Flush(w0, es)
      case RunWrap(l) =>
        match Wrap(w0, u, l, [arg])
        case Some(done) => done.0
        case None => if onThrow.Some? then Reject(w0, l, onThrow.value).0 else w0
  }

  /** A step whose head task is a tail runs that tail: each stage's queue
      gains that stage's entries, after what was already queued behind the
      head (index.js:206-211). */
  lemma StepRunsTail(w: World, u: UserFns, m: string, arg: Val, onThrow: Option<Val>, es: seq<Request>)
    requires Queue(w, m) != [] && Queue(w, m)[0] == RunTail(es)
    ensures var w' := Step(w, u, m, arg, onThrow);
      && w'.links == w.links && w'.heap == w.heap && w'.fills == w.fills
      && Queue(w', m) == Queue(w, m)[1..] + ForStage(es, m)
      && forall m' :: m' != m ==> Queue(w', m') == Queue(w, m') + ForStage(es, m')
  {
    var w0 := w.(queues := w.queues[m := Queue(w, m)[1..]]);
    assert Step(w, u, m, arg, onThrow) == Flush(w0, es);
    assert Queue(w0, m) == Queue(w, m)[1..];
  }

  /** A step whose head task is a link's `wrap` runs it, with the rest of the
      queue left in order behind it; when the task throws, a catching
      scheduler calls the link's `reject` (index.js:175). */
  lemma StepRunsWrap(w: World, u: UserFns, m: string, l: nat, arg: Val, onThrow: Option<Val>)
    requires Queue(w, m) != [] && Queue(w, m)[0] == RunWrap(l)
    ensures var w0 := w.(queues := w.queues[m := Queue(w, m)[1..]]);
      && Queue(w0, m) == Queue(w, m)[1..]
      && (forall m' :: m' != m ==> Queue(w0, m') == Queue(w, m'))
      && (Wrap(w0, u, l, [arg]).Some? ==> Step(w, u, m, arg, onThrow) == Wrap(w0, u, l, [arg]).value.0)
      && (Wrap(w0, u, l, [arg]).None? && onThrow.Some? ==> Step(w, u, m, arg, onThrow) == Reject(w0, l, onThrow.value).0)
      && (Wrap(w0, u, l, [arg]).None? && onThrow.None? ==> Step(w, u, m, arg, onThrow) == w0)
  {
  }

  /** A foreign thenable that a link adopted calls the `resolve` or `reject`
      it was handed. */
  function ForeignSettle(w: World, l: nat, ok: bool, v: Val): (w': World)
    requires l in w.awaiting
    ensures Progress(w, w')
    ensures Pending(w, l) ==> w'.links[l].done
    ensures Pending(w, l) && ok ==> w'.links[l].result == v
    ensures Pending(w, l) && !ok ==> IsRejected(w'.heap, w'.links[l].result)
  {
    if ok then Resolve(w, l, v).0 else Reject(w, l, v).0
  }
}

=== FILE: link_properties.dfy ===
/** Properties of one link and its `fill` adapter: settlement is final, and
    rejection travels through `then`, `catch` and `finally` children the way
    index.js:153-197 makes it travel. */
module LinkProperties {
  import opened Values
  import opened Engine

  /** A link is settled and its result carries the rejection marker now. */
  predicate SettledRejected(w: World, l: nat)
  {
    l < |w.links| && w.links[l].done && IsRejected(w.heap, w.links[l].result)
  }

  /** At most one settlement (index.js:153-162): once `resolve` has run on a
      pending link, a second `resolve` or a `reject` changes no link, and
      the first value stays. */
  lemma ResolveOnce(w: World, l: nat, v: Val, v2: Val, e: Val)
    requires Pending(w, l)
    ensures var w1 := Resolve(w, l, v).0;
      && Resolve(w1, l, v2) == (w1, Nullish)
      && Reject(w1, l, e).0.links == w1.links
      && w1.links[l].result == v
  {
  }

  /** Settlement survives every scheduler step: a done link stays done with
      the same result, whatever task runs and whatever it returns. */
  lemma StepKeepsSettlement(w: World, u: UserFns, m: string, arg: Val, onThrow: Option<Val>, l: nat)
    requires l < |w.links| && w.links[l].done
    ensures var w' := Step(w, u, m, arg, onThrow);
      w'.links[l].done && w'.links[l].result == w.links[l].result
  {
    assert Keeps(w.links[l], Step(w, u, m, arg, onThrow).links[l]);
  }

  /** A `then` (or custom-stage) child of a rejected parent hands on the very
      same rejected object and never calls its handler: the step is exactly
      `resolve(parentResult)` (index.js:191-193). */
  lemma PassSkipsRejected(w: World, u: UserFns, p: nat, c: nat, g: Callable, arg: Val)
    requires Pending(w, c) && w.links[c].body == Fill(PassFill, p, g)
    requires IsRejected(w.heap, ResultOf(w, p))
    requires !Thenable(w.heap, ResultOf(w, p))
    ensures var pr := ResultOf(w, p);
      && Wrap(w, u, c, [arg]) == Some((Resolve(w, c, pr).0, pr))
      && SettledRejected(Resolve(w, c, pr).0, c)
      && Resolve(w, c, pr).0.links[c].result == pr
  {
  }

  /** A `then` child of a parent that settled with anything but a rejection
      or `null`/`undefined` calls its handler with the parent's result and
      the scheduler's argument, and settles with what it returns
      (index.js:194-196). */
  lemma PassCallsHandler(w: World, u: UserFns, p: nat, c: nat, h: nat, arg: Val)
    requires Pending(w, c) && w.links[c].body == Fill(PassFill, p, User(h))
    requires !IsRejected(w.heap, ResultOf(w, p))
    requires !ResultOf(w, p).Nullish?
    requires !Thenable(w.heap, u(h, [ResultOf(w, p), arg]))
    ensures var v := u(h, [ResultOf(w, p), arg]);
      && Wrap(w, u, c, [arg]).Some?
      && Wrap(w, u, c, [arg]).value.0.links[c].done
      && Wrap(w, u, c, [arg]).value.0.links[c].result == v
  {
  }

  /** `catch` on a rejected parent (index.js:184-187): the flag is cleared on
      the parent's own result object, the handler runs with that object and
      the scheduler's argument, and the child settles with its return value.
      The parent, still holding the same object, now reads as not rejected. */
  lemma CatchRecovers(w: World, u: UserFns, p: nat, c: nat, h: nat, arg: Val)
    requires Pending(w, c) && w.links[c].body == Fill(CatchFill, p, User(h))
    requires p < |w.links| && w.links[p].done
    requires IsRejected(w.heap, ResultOf(w, p))
    requires !Thenable(w.heap, u(h, [ResultOf(w, p), arg]))
    ensures var v := u(h, [ResultOf(w, p), arg]);
      && Wrap(w, u, c, [arg]).Some?
      && Wrap(w, u, c, [arg]).value.0.links[c].done
      && Wrap(w, u, c, [arg]).value.0.links[c].result == v
      && Wrap(w, u, c, [arg]).value.0.links[p].result == w.links[p].result
      && !IsRejected(Wrap(w, u, c, [arg]).value.0.heap, Wrap(w, u, c, [arg]).value.0.links[p].result)
  {
    var pr := ResultOf(w, p);
    var w1 := w.(heap := SetFlag(w.heap, pr.id, false));
    assert RunFill(w, u, CatchFill, p, User(h), arg) == Some((w1, u(h, [pr, arg])));
    assert !Thenable(w1.heap, u(h, [pr, arg]));
  }

  /** `catch` on a parent that is not rejected hands on the parent's result
      without calling the handler (index.js:188-189). */
  lemma CatchPassesFulfilled(w: World, u: UserFns, p: nat, c: nat, g: Callable, arg: Val)
    requires Pending(w, c) && w.links[c].body == Fill(CatchFill, p, g)
    requires !IsRejected(w.heap, ResultOf(w, p))
    requires !ResultOf(w, p).Nullish?
    requires !Thenable(w.heap, ResultOf(w, p))
    ensures var pr := ResultOf(w, p);
      Wrap(w, u, c, [arg]) == Some((Resolve(w, c, pr).0, pr))
  {
  }

  /** Because `catch` clears the flag on the object the parent still holds, a
      second `catch` child of the same rejected parent, run after the first,
      finds nothing to recover: it settles with the parent's result and never
      calls its own handler. */
  lemma SecondCatchSeesRecovered(w: World, u: UserFns, p: nat, c1: nat, c2: nat, h1: nat, g2: Callable, arg1: Val, arg2: Val)
    requires c1 != c2 && Pending(w, c1) && Pending(w, c2)
    requires w.links[c1].body == Fill(CatchFill, p, User(h1))
    requires w.links[c2].body == Fill(CatchFill, p, g2)
    requires p < |w.links| && w.links[p].done
    requires IsRejected(w.heap, ResultOf(w, p))
    requires !Thenable(w.heap, u(h1, [ResultOf(w, p), arg1]))
    requires !Thenable(w.heap, ResultOf(w, p))
    ensures var pr := ResultOf(w, p);
      var w1 := Wrap(w, u, c1, [arg1]).value.0;
      && Wrap(w, u, c1, [arg1]).Some?
      && Wrap(w1, u, c2, [arg2]) == Some((Resolve(w1, c2, pr).0, pr))
      && !IsRejected(Resolve(w1, c2, pr).0.heap, Resolve(w1, c2, pr).0.links[c2].result)
  {
    var pr := ResultOf(w, p);
    CatchRecovers(w, u, p, c1, h1, arg1);
    var w1 := Wrap(w, u, c1, [arg1]).value.0;
    assert Keeps(w.links[c2], w1.links[c2]);
    assert ResultOf(w1, p) == pr;
    assert Pending(w1, c2) by {
      assert SameStatus(w, w.(heap := SetFlag(w.heap, pr.id, false)));
    }
    assert Live(w1.heap, pr);
    CatchPassesFulfilled(w1, u, p, c2, g2, arg2);
  }

  /** `finally` (index.js:181-183) calls its handler with the scheduler's
      argument alone and settles with the parent's own result, whatever the
      handler returned; the rejection flag is left as it was. */
  lemma FinallyKeepsParentResult(w: World, u: UserFns, p: nat, c: nat, h: nat, arg: Val)
    requires Pending(w, c) && w.links[c].body == Fill(FinallyFill, p, User(h))
    requires !Thenable(w.heap, ResultOf(w, p))
    ensures var pr := ResultOf(w, p);
      && Wrap(w, u, c, [arg]) == Some((Resolve(w, c, pr).0, pr))
      && Resolve(w, c, pr).0.links[c].result == pr
      && (IsRejected(Resolve(w, c, pr).0.heap, pr) <==> IsRejected(w.heap, pr))
  {
  }

  /** The adapters of `catch` and of every non-`finally` stage read the flag
      of the parent's result before anything else, and that read throws when
      the parent settled with `null` or `undefined` (a handler that returned
      nothing, or `Promise.resolve()`). The child stays pending unless its
      scheduler catches the error and calls the task's `reject`. */
  lemma NullishParentThrows(w: World, u: UserFns, m: string, k: FillKind, p: nat, c: nat, g: Callable, arg: Val, e: Val)
    requires Pending(w, c) && w.links[c].body == Fill(k, p, g) && k != FinallyFill
    requires ResultOf(w, p).Nullish?
    requires Queue(w, m) != [] && Queue(w, m)[0] == RunWrap(c)
    ensures Wrap(w, u, c, [arg]).None?
    ensures !Step(w, u, m, arg, None).links[c].done
    ensures SettledRejected(Step(w, u, m, arg, Some(e)), c)
  {
    var w0 := w.(queues := w.queues[m := Queue(w, m)[1..]]);
    assert Wrap(w0, u, c, [arg]).None?;
  }

  /** `reject(e)` is exactly `resolve(mark_rejected(e))` (index.js:160-162):
      an object is settled as itself with its marker set, anything else as
      a fresh marked box of it, and the tail goes wherever `resolve` sends
      it. */
  lemma RejectIsResolveOfTagged(w: World, l: nat, e: Val)
    ensures var (h, e') := MarkRejected(w.heap, e);
      Reject(w, l, e) == Resolve(w.(heap := h), l, e')
    ensures Pending(w, l) ==> SettledRejected(Reject(w, l, e).0, l)
    ensures Pending(w, l) && Live(w.heap, e) ==> Reject(w, l, e).0.links[l].result == e
  {
  }

  /** A `then` child whose handler is another link's `resolve`, over a
      parent that fulfilled: running it settles that other link with the
      parent's result. */
  lemma PassToResolver(w: World, u: UserFns, p: nat, c: nat, l: nat, arg: Val)
    requires Pending(w, c) && w.links[c].body == Fill(PassFill, p, Resolver(l))
    requires Pending(w, l) && l != c
    requires !IsRejected(w.heap, ResultOf(w, p)) && !ResultOf(w, p).Nullish?
    requires !Thenable(w.heap, ResultOf(w, p))
    ensures Wrap(w, u, c, [arg]).Some?
    ensures Wrap(w, u, c, [arg]).value.0.links[l].done
    ensures Wrap(w, u, c, [arg]).value.0.links[l].result == ResultOf(w, p)
  {
    var pr := ResultOf(w, p);
    var w2 := Resolve(w, l, pr).0;
    assert RunFill(w, u, PassFill, p, Resolver(l), arg) == Some((w2, pr));
    assert Keeps(w2.links[l], Settle(w2, c, pr).links[l]);
  }

  /** A `catch` child whose handler is another link's `reject`, over a parent
      that settled rejected: running it settles that other link with the
      parent's very result object, marked rejected again. */
  lemma CatchToRejecter(w: World, u: UserFns, p: nat, c: nat, l: nat, arg: Val)
    requires Pending(w, c) && w.links[c].body == Fill(CatchFill, p, Rejecter(l))
    requires Pending(w, l) && l != c
    requires IsRejected(w.heap, ResultOf(w, p)) && !Thenable(w.heap, ResultOf(w, p))
    ensures Wrap(w, u, c, [arg]).Some?
    ensures Wrap(w, u, c, [arg]).value.0.links[l].done
    ensures Wrap(w, u, c, [arg]).value.0.links[l].result == ResultOf(w, p)
    ensures IsRejected(Wrap(w, u, c, [arg]).value.0.heap, ResultOf(w, p))
  {
    var pr := ResultOf(w, p);
    var w1 := w.(heap := SetFlag(w.heap, pr.id, false));
    assert SameStatus(w, w1);
    assert RunFill(w, u, CatchFill, p, Rejecter(l), arg) == Some(Reject(w1, l, pr));
    var w2 := Reject(w1, l, pr).0;
    assert w2.links[l].result == pr && IsRejected(w2.heap, pr);
    assert !Thenable(w2.heap, pr);
    var w3 := Settle(w2, c, pr);
    assert Keeps(w2.links[l], w3.links[l]);
    assert w3.heap == w2.heap;
  }

  /** Running the `wrap` of link `c` and then that of link `c + 1` succeeds
      and leaves link `l` settled with `pr`, which carries the rejection
      marker. */
  predicate RejectionForwardedBy(w: World, u: UserFns, c: nat, l: nat, pr: Val, arg1: Val, arg2: Val)
  {
    && Wrap(w, u, c, [arg1]).Some?
    && var w2 := Wrap(w, u, c, [arg1]).value.0;
    && Wrap(w2, u, c + 1, [arg2]).Some?
    && var w3 := Wrap(w2, u, c + 1, [arg2]).value.0;
    && l < |w3.links| && w3.links[l].done && w3.links[l].result == pr
    && IsRejected(w3.heap, pr)
  }

  /** The proxy of link `l2` that a pending link `l`'s handler returned
      (index.js:167-168): once `l2` has fulfilled, running the `then` child
      that adoption attached settles `l` with `l2`'s result. */
  lemma AdoptedFulfilment(w: World, u: UserFns, l: nat, v: Val, l2: nat, arg: Val)
    requires Pending(w, l) && Live(w.heap, v) && w.heap[v.id].kind == Proxy(l2)
    requires l2 < |w.links| && w.links[l2].done
    requires Valid(w.heap, w.links[l2].result)
    requires !IsRejected(w.heap, w.links[l2].result) && !w.links[l2].result.Nullish?
    requires !Thenable(w.heap, w.links[l2].result)
    ensures var w1 := Adopt(w, l, v);
      && Wrap(w1, u, |w.links|, [arg]).Some?
      && Wrap(w1, u, |w.links|, [arg]).value.0.links[l].done
      && Wrap(w1, u, |w.links|, [arg]).value.0.links[l].result == w.links[l2].result
  {
    AdoptedPair(w, l, v, l2);
    PassToResolver(Adopt(w, l, v), u, l2, |w.links|, l, arg);
  }

  /** The same adoption when `l2` has settled rejected: the `then` child
      hands the rejected object on, and the `catch` child after it clears
      the marker, calls `l`'s `reject`, and so settles `l` with that very
      object, marked rejected again. */
  lemma AdoptedRejection(w: World, u: UserFns, l: nat, v: Val, l2: nat, arg1: Val, arg2: Val)
    requires Pending(w, l) && Live(w.heap, v) && w.heap[v.id].kind == Proxy(l2)
    requires l2 < |w.links| && w.links[l2].done
    requires IsRejected(w.heap, w.links[l2].result) && !Thenable(w.heap, w.links[l2].result)
    ensures RejectionForwardedBy(Adopt(w, l, v), u, |w.links|, l, w.links[l2].result, arg1, arg2)
  {
    AdoptedPair(w, l, v, l2);
    PairForwardsRejection(Adopt(w, l, v), u, l2, |w.links|, l, w.links[l2].result, arg1, arg2);
  }

  /** A `then` child `c` of `p` calling `l`'s `resolve`, and a `catch` child
      `c + 1` of `c` calling `l`'s `reject`, over a parent that settled
      rejected: running the two in turn settles `l` with the parent's
      result, marked rejected. */
  lemma PairForwardsRejection(w: World, u: UserFns, p: nat, c: nat, l: nat, pr: Val, arg1: Val, arg2: Val)
    requires Pending(w, c) && w.links[c].body == Fill(PassFill, p, Resolver(l))
    requires Pending(w, c + 1) && w.links[c + 1].body == Fill(CatchFill, c, Rejecter(l))
    requires Pending(w, l) && l != c && l != c + 1
    requires ResultOf(w, p) == pr && IsRejected(w.heap, pr) && !Thenable(w.heap, pr)
    ensures RejectionForwardedBy(w, u, c, l, pr, arg1, arg2)
  {
    PassSkipsRejected(w, u, p, c, Resolver(l), arg1);
    var w2 := Resolve(w, c, pr).0;
    assert Keeps(w.links[c + 1], w2.links[c + 1]);
    CatchToRejecter(w2, u, c, c + 1, l, arg2);
  }

  /** What adopting the proxy of `l2` leaves behind: the two children at the
      end of the link list, still pending, with `l` pending and `l2`'s result
      reading as it did. */
  lemma AdoptedPair(w: World, l: nat, v: Val, l2: nat)
    requires Pending(w, l) && Live(w.heap, v) && w.heap[v.id].kind == Proxy(l2)
    requires l2 < |w.links| && Valid(w.heap, w.links[l2].result)
    ensures var w1 := Adopt(w, l, v); var c := |w.links|;
      && Pending(w1, c) && w1.links[c].body == Fill(PassFill, l2, Resolver(l))
      && Pending(w1, c + 1) && w1.links[c + 1].body == Fill(CatchFill, c, Rejecter(l))
      && Pending(w1, l) && ResultOf(w1, l2) == w.links[l2].result
      && IsRejected(w1.heap, w.links[l2].result) == IsRejected(w.heap, w.links[l2].result)
      && Thenable(w1.heap, w.links[l2].result) == Thenable(w.heap, w.links[l2].result)
  {
    AdoptedHeap(w, l, v, w.links[l2].result);
  }

  /** Adoption only adds objects to the heap, so a valid value reads the same
      before and after it. */
  lemma AdoptedHeap(w: World, l: nat, v: Val, x: Val)
    requires Thenable(w.heap, v) && Valid(w.heap, x)
    ensures IsRejected(Adopt(w, l, v).heap, x) == IsRejected(w.heap, x)
    ensures Thenable(Adopt(w, l, v).heap, x) == Thenable(w.heap, x)
  {
    var h' := Adopt(w, l, v).heap;
    if x.Ref? {
      assert h'[x.id] == h'[..|w.heap|][x.id];
    }
  }
}

=== FILE: ordering.dfy ===
/** Ordering of children (index.js:199-212): stage calls made on a pending
    link queue up on its tail in call order, and once the link settles its
    tail hands every child to that child's stage scheduler in the same
    order. */
module Ordering {
  import opened Values
  import opened Engine

  /** Stage calls made one after the other on the proxy of `p`, each without
      a recovery handler; returns the new children in call order. */
  function AttachMany(w: World, p: nat, calls: seq<(string, Callable)>): (r: (World, seq<nat>))
    requires p < |w.links|
    ensures Progress(w, r.0) && SameStatus(w, r.0)
    ensures |r.1| == |calls| && |r.0.links| == |w.links| + |calls|
    ensures forall i :: 0 <= i < |calls| ==> r.1[i] == |w.links| + i
    ensures forall j :: |w.links| <= j < |r.0.links| ==> !r.0.links[j].done
    decreases |calls|
  {
    if calls == [] then (w, [])
    else
      var first := Dispatch(w, p, calls[0].0, calls[0].1);
      var rest := AttachMany(first.0, p, calls[1..]);
      AttachManyStep(w, first.0, first.1, rest.0, rest.1);
      (rest.0, [first.1] + rest.1)
  }

  /** One step of `AttachMany`: the first child `k` in front of the children `ks` of the rest. */
  lemma AttachManyStep(w: World, w1: World, k: nat, w2: World, ks: seq<nat>)
    requires Progress(w, w1) && SameStatus(w, w1)
    requires k == |w.links| && |w1.links| == |w.links| + 1 && !w1.links[k].done
    requires Progress(w1, w2) && SameStatus(w1, w2)
    requires |w2.links| == |w1.links| + |ks|
    requires forall i :: 0 <= i < |ks| ==> ks[i] == |w1.links| + i
    requires forall j :: |w1.links| <= j < |w2.links| ==> !w2.links[j].done
    ensures Progress(w, w2) && SameStatus(w, w2)
    ensures forall i :: 0 <= i < |ks| + 1 ==> ([k] + ks)[i] == |w.links| + i
    ensures forall j :: |w.links| <= j < |w2.links| ==> !w2.links[j].done
  {
    ProgressTrans(w, w1, w2);
    SameStatusTrans(w, w1, w2);
    assert w2.links[k].done == w1.links[k].done;
    assert forall i :: 0 < i < |ks| + 1 ==> ([k] + ks)[i] == ks[i - 1];
  }

  /** The tail entries the children `kids` of the calls `calls` leave. */
  function Requests(calls: seq<(string, Callable)>, kids: seq<nat>): (es: seq<Request>)
    requires |kids| == |calls|
    ensures |es| == |calls|
    ensures forall i :: 0 <= i < |calls| ==> es[i] == Request(calls[i].0, RunWrap(kids[i]))
  {
    if calls == [] then []
    else [Request(calls[0].0, RunWrap(kids[0]))] + Requests(calls[1..], kids[1..])
  }

  /** Calls on a pending link schedule nothing yet: each child is appended
      to the parent's tail, in call order. */
  lemma {:induction false} PendingCallsQueueInOrder(w: World, p: nat, calls: seq<(string, Callable)>)
    requires Pending(w, p)
    ensures var (w', kids) := AttachMany(w, p, calls);
      && w'.queues == w.queues
      && w'.links[p].tail == w.links[p].tail + Requests(calls, kids)
    decreases |calls|
  {
    if calls != [] {
      var (w1, c) := Dispatch(w, p, calls[0].0, calls[0].1);
      assert w1.queues == w.queues;
      assert w1.links[p].tail == w.links[p].tail + [Request(calls[0].0, RunWrap(c))];
      assert !w1.links[p].done;
      PendingCallsQueueInOrder(w1, p, calls[1..]);
      var (w2, cs) := AttachMany(w1, p, calls[1..]);
      assert AttachMany(w, p, calls) == (w2, [c] + cs);
      assert ([c] + cs)[1..] == cs;
      assert Requests(calls, [c] + cs) == [Request(calls[0].0, RunWrap(c))] + Requests(calls[1..], cs);
    }
  }

  /** One call on a settled link: its child is queued on its stage. */
  lemma SettledCallQueues(w: World, p: nat, m: string, g: Callable)
    requires p < |w.links| && w.links[p].done
    ensures var (w1, c) := Dispatch(w, p, m, g);
      && w1.links[p] == w.links[p]
      && forall m' :: Queue(w1, m') == Queue(w, m') + ForStage([Request(m, RunWrap(c))], m')
  {
    var (w1, c) := Dispatch(w, p, m, g);
    forall m' ensures Queue(w1, m') == Queue(w, m') + ForStage([Request(m, RunWrap(c))], m') {
      assert ForStage([Request(m, RunWrap(c))], m') == (if m' == m then [RunWrap(c)] else []) + ForStage([], m');
    }
  }

  /** The stage-`m` tasks of a tail split at its first entry. */
  lemma ForStageCons(e: Request, es: seq<Request>, m: string)
    ensures ForStage([e] + es, m) == ForStage([e], m) + ForStage(es, m)
  {
    assert ([e] + es)[1..] == es;
  }

  /** Two rounds of scheduling compose: the queues gain the first round's
      tasks and then the second's. */
  lemma ComposeRounds(w: World, w1: World, w2: World, e: Request, rest: seq<Request>)
    requires forall m :: Queue(w1, m) == Queue(w, m) + ForStage([e], m)
    requires forall m :: Queue(w2, m) == Queue(w1, m) + ForStage(rest, m)
    ensures forall m :: Queue(w2, m) == Queue(w, m) + ForStage([e] + rest, m)
  {
    forall m
      ensures Queue(w2, m) == Queue(w, m) + ForStage([e] + rest, m)
    {
      ForStageCons(e, rest, m);
    }
  }

  /** Calls on a settled link go straight to the schedulers: every stage's
      queue gains exactly that stage's children, in call order. */
  lemma {:induction false} SettledCallsScheduleAtOnce(w: World, p: nat, calls: seq<(string, Callable)>)
    requires p < |w.links| && w.links[p].done
    ensures var (w', kids) := AttachMany(w, p, calls);
      && w'.links[p].tail == w.links[p].tail
      && forall m :: Queue(w', m) == Queue(w, m) + ForStage(Requests(calls, kids), m)
    decreases |calls|
  {
    if calls != [] {
      SettledCallQueues(w, p, calls[0].0, calls[0].1);
      var (w1, c) := Dispatch(w, p, calls[0].0, calls[0].1);
      SettledCallsScheduleAtOnce(w1, p, calls[1..]);
      var (w2, cs) := AttachMany(w1, p, calls[1..]);
      assert AttachMany(w, p, calls) == (w2, [c] + cs);
      assert ([c] + cs)[1..] == cs;
      var head := Request(calls[0].0, RunWrap(c));
      var rest := Requests(calls[1..], cs);
      assert Requests(calls, [c] + cs) == [head] + rest;
      ComposeRounds(w, w1, w2, head, rest);
    }
  }

  /** The whole life of a pending link's tail: children attached while a
      link is pending are not scheduled; when the link settles its tail goes
      to its stage `m0`'s scheduler as one task; when that task runs, every
      stage's queue gains exactly that stage's children, in the order the
      calls were made. The link is a chain's first link on `m0`, or an `m0`
      child of a settled parent, as `.then(g)` on `a.then(f)` is once `a`
      has settled. */
  lemma TailFlushedInCallOrder(w: World, u: UserFns, l: nat, m0: string, calls: seq<(string, Callable)>,
                               v: Val, arg: Val, onThrow: Option<Val>)
    requires Pending(w, l) && w.links[l].tail == []
    requires FlushesAt(w, l) && w.links[l].sched.m == m0 && Queue(w, m0) == []
    ensures var attached := AttachMany(w, l, calls);
      var w1 := attached.0;
      var kids := attached.1;
      var w2 := Resolve(w1, l, v).0;
      var w3 := Step(w2, u, m0, arg, onThrow);
      && w1.queues == w.queues
      && Queue(w2, m0) == [RunTail(Requests(calls, kids))]
      && forall m :: Queue(w3, m) == Queue(w, m) + ForStage(Requests(calls, kids), m)
  {
    AttachKeepsHead(w, l, calls);
    SettleThenRunTail(AttachMany(w, l, calls).0, u, l, m0, v, arg, onThrow);
  }

  /** Calls on a pending link leave it pending and handing its tail to the
      same stage, with the children's entries as its tail. */
  lemma AttachKeepsHead(w: World, l: nat, calls: seq<(string, Callable)>)
    requires Pending(w, l) && w.links[l].tail == [] && FlushesAt(w, l)
    ensures var attached := AttachMany(w, l, calls);
      && attached.0.queues == w.queues
      && !attached.0.links[l].done && FlushesAt(attached.0, l)
      && attached.0.links[l].sched == w.links[l].sched
      && attached.0.links[l].tail == Requests(calls, attached.1)
  {
    PendingCallsQueueInOrder(w, l, calls);
    var w1 := AttachMany(w, l, calls).0;
    var es := Requests(calls, AttachMany(w, l, calls).1);
    assert Keeps(w.links[l], w1.links[l]);
    assert w1.links[l].tail == [] + es;
    assert [] + es == es;
    if w.links[l].sched.AfterParent? {
      assert Keeps(w.links[w.links[l].sched.parent], w1.links[w.links[l].sched.parent]);
    }
  }

  /** A pending link that hands its tail to stage `m0` (a chain's first
      link, or a child of a settled parent) while that stage's queue is
      empty: settling it queues its tail as the only `m0` task, and the next
      `m0` step hands every entry to its stage. */
  lemma SettleThenRunTail(w: World, u: UserFns, l: nat, m0: string, v: Val, arg: Val, onThrow: Option<Val>)
    requires Pending(w, l)
    requires FlushesAt(w, l) && w.links[l].sched.m == m0 && Queue(w, m0) == []
    ensures var w2 := Resolve(w, l, v).0;
      && Queue(w2, m0) == [RunTail(w.links[l].tail)]
      && forall m :: Queue(Step(w2, u, m0, arg, onThrow), m) == Queue(w, m) + ForStage(w.links[l].tail, m)
  {
    var es := w.links[l].tail;
    var w2 := Resolve(w, l, v).0;
    assert Queue(w2, m0) == [RunTail(es)];
    StepRunsTail(w2, u, m0, arg, onThrow, es);
    assert Queue(w2, m0)[1..] + ForStage(es, m0) == Queue(w, m0) + ForStage(es, m0);
  }
}

=== FILE: promise_properties.dfy ===
/** Properties of `Promise` roots and of the combinators built on them
    (index.js:225-276). */
module PromiseProperties {
  import opened Values
  import opened Engine
  import opened Combinators
  import opened LinkProperties

  /** The executor's `resolve` settles a pending root, but the root's
      scheduler only stores the tail it is handed in `_fill`: no child
      attached while the root was pending is scheduled (index.js:156, 228-230). */
  lemma ExecutorResolveStoresTail(w: World, u: UserFns, r: nat, v: Val)
    requires IsRoot(w, r) && !w.links[r].done && !Thenable(w.heap, v)
    ensures var w' := Invoke(w, u, ExecResolve(r), [v]).0;
      && w'.links[r].done && w'.links[r].result == v
      && w'.queues == w.queues
      && w'.fills == w.fills[r := RunTail(w.links[r].tail)]
  {
  }

  /** The executor's `reject` reads `_fill` when it is called
      (index.js:233-235). Once the root has settled, `_fill` holds the root's
      tail, so a late `reject` leaves the root's result alone and runs that
      tail: every stage's queue gains its children in attachment order. */
  lemma LateRejectRunsStoredTail(w: World, u: UserFns, r: nat, es: seq<Request>, x: Val)
    requires IsRoot(w, r) && w.links[r].done
    requires r in w.fills && w.fills[r] == RunTail(es)
    ensures var w' := Invoke(w, u, ExecReject(r), [x]).0;
      && w'.links == w.links
      && forall m :: Queue(w', m) == Queue(w, m) + ForStage(es, m)
  {
  }

  /** `Promise.resolve(x)` (index.js:239-243): once the `then` scheduler
      runs the new link's task, the link is fulfilled with `x` itself. */
  lemma PromiseResolveSettles(w: World, u: UserFns, x: Val, arg: Val, onThrow: Option<Val>)
    requires Queue(w, "then") == [] && Valid(w.heap, x) && !Thenable(w.heap, x)
    ensures var started := PromiseResolve(w, x);
      var w2 := Step(started.0, u, "then", arg, onThrow);
      && w2.links[started.1].done && w2.links[started.1].result == x
      && (IsRejected(w2.heap, x) <==> IsRejected(w.heap, x))
  {
    var started := PromiseResolve(w, x);
    var (w1, l) := started;
    assert w1.heap[..|w.heap|] == w.heap;
    var w0 := w1.(queues := w1.queues["then" := []]);
    assert !Thenable(w0.heap, x);
    assert CallBody(w0, u, w0.links[l].body, [arg]) == Some((w0, x));
    assert Wrap(w0, u, l, [arg]) == Some((Resolve(w0, l, x).0, x));
    assert Queue(w1, "then")[1..] == [];
    StepRunsWrap(w1, u, "then", l, arg, onThrow);
  }

  /** `Promise.reject(x)` (index.js:244-248): once the `catch` scheduler runs
      the new link's task, the link is settled rejected; an object is handed
      on itself, with its marker set. */
  lemma PromiseRejectSettles(w: World, u: UserFns, x: Val, arg: Val, onThrow: Option<Val>)
    requires Queue(w, "catch") == [] && Valid(w.heap, x) && !Thenable(w.heap, x)
    ensures var started := PromiseReject(w, x);
      var w2 := Step(started.0, u, "catch", arg, onThrow);
      && w2.links[started.1].done && IsRejected(w2.heap, w2.links[started.1].result)
      && (x.Ref? ==> w2.links[started.1].result == x)
  {
    var started := PromiseReject(w, x);
    var (w1, l) := started;
    assert w1.heap[..|w.heap|] == w.heap;
    var w0 := w1.(queues := w1.queues["catch" := []]);
    var (h, x') := MarkRejected(w0.heap, x);
    assert !Thenable(w0.heap, x);
    assert CallBody(w0, u, w0.links[l].body, [arg]) == Some((w0.(heap := h), x'));
    assert Wrap(w0, u, l, [arg]) == Some((Resolve(w0.(heap := h), l, x').0, x'));
    assert Queue(w1, "catch")[1..] == [];
    StepRunsWrap(w1, u, "catch", l, arg, onThrow);
  }

  /** Why `Promise.race` settles with the first input to settle: once the
      root is done its `wrap` is a no-op, and a later `reject` keeps the
      root's result (index.js:163-165, 249-257). */
  lemma RaceFirstWins(w: World, u: UserFns, r: nat, args: seq<Val>)
    requires IsRoot(w, r) && w.links[r].done
    ensures Invoke(w, u, ExecResolve(r), args) == (w, Nullish)
    ensures var w' := Invoke(w, u, ExecReject(r), args).0;
      w'.links[r].done && w'.links[r].result == w.links[r].result
  {
    var w' := Invoke(w, u, ExecReject(r), args).0;
    assert Keeps(w.links[r], w'.links[r]);
  }

  /** The fulfilment half of `list[i].then(resolve, reject)` in
      `Promise.race` (index.js:254): when input `p` settled with a value that
      is neither rejected nor `null`/`undefined`, its `then` child calls the
      executor's `resolve` with that value, which settles a still-pending
      root with it. Together with `RaceFirstWins`, the first input to settle
      decides the race. */
  lemma ResolutionForwarded(w: World, u: UserFns, p: nat, c: nat, r: nat, arg: Val)
    requires IsRoot(w, r) && !w.links[r].done
    requires Pending(w, c) && c != r && w.links[c].body == Fill(PassFill, p, ExecResolve(r))
    requires !IsRejected(w.heap, ResultOf(w, p)) && !ResultOf(w, p).Nullish? && !Thenable(w.heap, ResultOf(w, p))
    ensures Wrap(w, u, c, [arg]).Some?
    ensures var w' := Wrap(w, u, c, [arg]).value.0;
      && w'.links[r].done && w'.links[r].result == ResultOf(w, p)
      && w'.links[c].done && w'.links[c].result == ResultOf(w, p)
  {
  }

  /** `Promise.race(list)` followed by one `then` step: when the input
      visited in round `k` has already fulfilled with a plain value, running
      the `then` child `Race` attached to it settles the race's root with
      that value (index.js:249-257). */
  method RaceTakesFulfilledInput(w: World, u: UserFns, list: seq<nat>, k: nat, arg: Val)
    returns (raced: World, root: nat, w': World)
    requires forall i :: 0 <= i < |list| ==> list[i] < |w.links|
    requires k < |list| && w.links[list[|list| - 1 - k]].done
    requires var x := w.links[list[|list| - 1 - k]].result;
      Valid(w.heap, x) && !IsRejected(w.heap, x) && !x.Nullish? && !Thenable(w.heap, x)
    ensures IsRoot(raced, root) && !raced.links[root].done && Visit(root, k) < |raced.links|
    ensures Wrap(raced, u, Visit(root, k), [arg]).Some? && w' == Wrap(raced, u, Visit(root, k), [arg]).value.0
    ensures w'.links[root].done && w'.links[root].result == w.links[list[|list| - 1 - k]].result
  {
    raced, root := Race(w, list);
    var p := list[|list| - 1 - k];
    var x := w.links[p].result;
    assert ResultOf(raced, p) == x;
    assert x.Ref? ==> raced.heap[x.id] == raced.heap[..|w.heap|][x.id];
    ResolutionForwarded(raced, u, p, Visit(root, k), root, arg);
    w' := Wrap(raced, u, Visit(root, k), [arg]).value.0;
  }

  /** The recovery half of `list[i].then(resolve, reject)` in `Promise.race`
      and `Promise.all`: when input `p` settled rejected, the `catch` child
      running the executor's `reject` settles a still-pending root with
      the input's own result object, marked rejected. Its `catch` adapter
      clears the marker on that object first and `mark_rejected` sets it again. */
  lemma RejectionForwarded(w: World, u: UserFns, p: nat, c: nat, r: nat, arg: Val)
    requires IsRoot(w, r) && !w.links[r].done && r in w.fills && w.fills[r] == RunWrap(r)
    requires Pending(w, c) && w.links[c].body == Fill(CatchFill, p, ExecReject(r))
    requires IsRejected(w.heap, ResultOf(w, p)) && !Thenable(w.heap, ResultOf(w, p))
    ensures Wrap(w, u, c, [arg]).Some?
    ensures var w' := Wrap(w, u, c, [arg]).value.0;
      && w'.links[r].done && w'.links[r].result == ResultOf(w, p)
      && IsRejected(w'.heap, w'.links[r].result)
  {
    var pr := ResultOf(w, p);
    var w1 := w.(heap := SetFlag(w.heap, pr.id, false));
    assert RunFill(w, u, CatchFill, p, ExecReject(r), arg) == Some(Invoke(w1, u, ExecReject(r), [pr, arg]));
    var (h2, x) := MarkRejected(w1.heap, pr);
    assert x == pr;
    var w2 := w1.(heap := h2);
    assert CallStored(w2, r, pr) == WrapIdentity(w2, r, pr);
    assert !Thenable(w2.heap, pr);
    var w3 := Resolve(w2, r, pr).0;
    assert Invoke(w1, u, ExecReject(r), [pr, arg]) == (w3, pr);
    assert w3.heap == h2 && IsRejected(w3.heap, pr);
    assert Wrap(w, u, c, [arg]) == Some((Settle(w3, c, pr), pr));
  }

  /** `Promise.all(list)` followed by two steps: when input `i` has already
      settled rejected, its `then` child hands the rejection on and the
      `catch` child after it calls the executor's `reject`, which settles
      the root with the input's own result object, marked rejected
      (index.js:258-276). */
  method AllTakesRejectedInput(w: World, u: UserFns, list: seq<nat>, i: nat, arg1: Val, arg2: Val)
    returns (all: World, root: nat, w': World)
    requires forall j :: 0 <= j < |list| ==> list[j] < |w.links|
    requires i < |list| && w.links[list[i]].done
    requires IsRejected(w.heap, w.links[list[i]].result) && !Thenable(w.heap, w.links[list[i]].result)
    ensures IsRoot(all, root) && !all.links[root].done && Visit(root, i) + 1 < |all.links|
    ensures Wrap(all, u, Visit(root, i), [arg1]).Some?
    ensures var passed := Wrap(all, u, Visit(root, i), [arg1]).value.0;
      && Wrap(passed, u, Visit(root, i) + 1, [arg2]).Some?
      && w' == Wrap(passed, u, Visit(root, i) + 1, [arg2]).value.0
    ensures w'.links[root].done && w'.links[root].result == w.links[list[i]].result
    ensures IsRejected(w'.heap, w'.links[root].result)
  {
    var a;
    all, root, a := All(w, list);
    var p := list[i];
    var c := Visit(root, i);
    var x := w.links[p].result;
    assert ResultOf(all, p) == x;
    assert all.heap[x.id] == all.heap[..|w.heap|][x.id];
    PassSkipsRejected(all, u, p, c, Collect(a, i), arg1);
    var passed := Resolve(all, c, x).0;
    assert FlushesAt(all, c);
    assert Keeps(all.links[c + 1], passed.links[c + 1]);
    assert Keeps(all.links[root], passed.links[root]);
    RejectionForwarded(passed, u, c, c + 1, root, arg2);
    w' := Wrap(passed, u, c + 1, [arg2]).value.0;
  }

  /** Fulfilments fed to `Promise.all`'s collector number `a`, one per input
      as `(index, value)`, in the order the inputs fulfil. */
  function CollectMany(w: World, u: UserFns, a: nat, items: seq<(nat, Val)>): (w': World)
    ensures Progress(w, w')
    decreases |items|
  {
    if items == [] then w
    else
      var w1 := Invoke(w, u, Collect(a, items[0].0), [items[0].1]).0;
      ProgressTrans(w, w1, CollectMany(w1, u, a, items[1..]));
      CollectMany(w1, u, a, items[1..])
  }

  /** The indices of the fulfilments are distinct and within the array. */
  predicate DistinctIndices(items: seq<(nat, Val)>, n: nat)
  {
    && (forall k :: 0 <= k < |items| ==> items[k].0 < n)
    && (forall k, k' :: 0 <= k < k' < |items| ==> items[k].0 != items[k'].0)
  }

  /** The state of one `Promise.all` countdown that the collector relies on. */
  predicate CountdownReady(w: World, a: nat, n: nat)
  {
    && a < |w.alls|
    && w.alls[a].arr < |w.heap| && w.heap[w.alls[a].arr].kind.Array?
    && |w.heap[w.alls[a].arr].kind.elems| == n
    && Pending(w, w.alls[a].root)
  }

  /** `Promise.all` (index.js:258-276): with fulfilments for distinct
      indices, each value lands at its own index of the array, no other slot
      changes, and the root settles (with the array) exactly when every
      outstanding input has fulfilled, whatever the order. */
  lemma {:induction false} AllSettlesWhenCountReachesZero(w: World, u: UserFns, a: nat, n: nat, items: seq<(nat, Val)>)
    requires CountdownReady(w, a, n) && DistinctIndices(items, n)
    requires 0 < w.alls[a].remaining && |items| <= w.alls[a].remaining
    ensures var w' := CollectMany(w, u, a, items);
      var c := w.alls[a];
      && (w'.links[c.root].done <==> |items| == c.remaining)
      && (w'.links[c.root].done ==> w'.links[c.root].result == Ref(c.arr))
      && w'.heap[c.arr].kind.Array? && |w'.heap[c.arr].kind.elems| == n
      && (forall k :: 0 <= k < |items| ==> w'.heap[c.arr].kind.elems[items[k].0] == items[k].1)
      && (forall j :: 0 <= j < n && (forall k :: 0 <= k < |items| ==> items[k].0 != j) ==>
            w'.heap[c.arr].kind.elems[j] == w.heap[c.arr].kind.elems[j])
    decreases |items|
  {
    var c := w.alls[a];
    if items != [] {
      var (i, x) := items[0];
      var w1 := Invoke(w, u, Collect(a, i), [x]).0;
      assert w1 == CountIn(w, a, i, x).0;
      var elems := w.heap[c.arr].kind.elems;
      assert w1.heap[c.arr].kind == Array(elems[i := x]);
      assert w1.alls[a] == c.(remaining := c.remaining - 1);
      var rest := items[1..];
      if c.remaining == 1 {
        assert rest == [];
        assert !Thenable(w.heap, Ref(c.arr));
        assert w1.links[c.root].done && w1.links[c.root].result == Ref(c.arr);
        assert CollectMany(w, u, a, items) == w1;
      } else {
        assert w1.links == w.links;
        assert CountdownReady(w1, a, n);
        assert DistinctIndices(rest, n);
        AllSettlesWhenCountReachesZero(w1, u, a, n, rest);
        assert CollectMany(w, u, a, items) == CollectMany(w1, u, a, rest);
        var w' := CollectMany(w1, u, a, rest);
        forall k | 0 <= k < |items|
          ensures w'.heap[c.arr].kind.elems[items[k].0] == items[k].1
        {
          if k > 0 {
            assert items[k] == rest[k - 1];
          } else {
            assert forall k' :: 0 <= k' < |rest| ==> rest[k'].0 != i;
          }
        }
        forall j | 0 <= j < n && (forall k :: 0 <= k < |items| ==> items[k].0 != j)
          ensures w'.heap[c.arr].kind.elems[j] == elems[j]
        {
          assert items[0].0 != j;
          forall k | 0 <= k < |rest| ensures rest[k].0 != j {
            assert rest[k] == items[k + 1];
          }
        }
      }
    }
  }

  /** With an empty list `Promise.all` attaches no collector and starts its
      countdown at zero (see `Combinators.All`); and even collector calls on
      a countdown that is already at or below zero never bring it to zero
      again, so they never settle the root. */
  lemma {:induction false} ExhaustedCountdownNeverSettles(w: World, u: UserFns, a: nat, items: seq<(nat, Val)>)
    requires a < |w.alls| && w.alls[a].remaining <= 0
    ensures CollectMany(w, u, a, items).links == w.links
    decreases |items|
  {
    if items != [] {
      var w1 := Invoke(w, u, Collect(a, items[0].0), [items[0].1]).0;
      assert w1.links == w.links && w1.alls[a].remaining < 0;
      ExhaustedCountdownNeverSettles(w1, u, a, items[1..]);
    }
  }
}

=== FILE: values.dfy ===
/** Values the chaining engine hands around, the object heap they point into,
    and the hidden rejection flag that the engine hangs on objects
    (index.js:119-126). */
module Values {

  datatype Option<+T> = None | Some(value: T)

  /** A JavaScript value as far as the engine can tell values apart:
      `null`/`undefined` (falsy, and a property read on them throws),
      a primitive (numbers stand in for every primitive: none of them has a
      `then` method or can carry a property), or a reference to an object. */
  datatype Val = Nullish | Num(n: int) | Ref(id: nat)

  /** What an object on the heap is. */
  datatype Kind =
    | Wrapper(n: int)          // `Object(n)`: a boxed primitive
    | Plain                    // `Object(null)` / `Object(undefined)`: a fresh empty object
    | Proxy(link: nat)         // the chainable proxy of a chain link
    | Foreign                  // a thenable that does not belong to this engine
    | Array(elems: seq<Val>)   // the array `Promise.all` fills in

  /** An object together with its hidden `REJECTED` property. */
  datatype Box = Box(kind: Kind, rejected: bool)

  type Heap = seq<Box>

  /** `v` refers to an object of the heap. References outside the heap never
      arise in the engine; the model treats them like primitives. */
  predicate Live(h: Heap, v: Val)
  {
    v.Ref? && v.id < |h|
  }

  /** The rejection marker is set on the object `v` refers to. */
  predicate IsRejected(h: Heap, v: Val)
  {
    Live(h, v) && h[v.id].rejected
  }

  /** `v && v.then`: only chain proxies and foreign thenables have a `then`
      method (every engine this model builds has a `then` stage). */
  predicate Thenable(h: Heap, v: Val)
    ensures Thenable(h, v) ==> !v.Nullish? && !v.Num? && v.id < |h|
  {
    Live(h, v) && (h[v.id].kind.Proxy? || h[v.id].kind.Foreign?)
  }

  /** The property read `v[REJECTED]` as a truth value, or None when the read
      throws a TypeError because `v` is `null` or `undefined`. */
  function ReadFlag(h: Heap, v: Val): (r: Option<bool>)
    ensures r.None? <==> v.Nullish?
    ensures r.Some? ==> (r.value <==> IsRejected(h, v))
  {
    if v.Nullish? then None else Some(IsRejected(h, v))
  }

  /** `obj[REJECTED] = b` on the object with the given id: only that flag changes. */
  function SetFlag(h: Heap, id: nat, b: bool): (h': Heap)
    requires id < |h|
    ensures |h'| == |h|
    ensures h'[id].rejected == b && h'[id].kind == h[id].kind
    ensures forall j :: 0 <= j < |h| && j != id ==> h'[j] == h[j]
  {
    h[id := h[id].(rejected := b)]
  }

  /** A value that names no object beyond the heap: every value a program can
      hold is one. */
  predicate Valid(h: Heap, v: Val)
  {
    v.Ref? ==> v.id < |h|
  }

  /** The object `Object(v)` creates when `v` is not already an object. */
  function BoxOf(v: Val): Kind
  {
    match v
    case Num(n) => Wrapper(n)
    case _ => Plain
  }

  /** `mark_rejected` (index.js:122-126): `Object(error)` returns an object
      unchanged and boxes anything else into a fresh object; the flag is then
      set on that object, which is returned. */
  function MarkRejected(h: Heap, v: Val): (r: (Heap, Val))
    ensures IsRejected(r.0, r.1)
    ensures Thenable(r.0, r.1) <==> Thenable(h, v)
    ensures |r.0| >= |h|
    ensures Live(h, v) ==> r.1 == v && |r.0| == |h| && r.0[v.id].kind == h[v.id].kind
    ensures !Live(h, v) ==> r.1 == Ref(|h|) && |r.0| == |h| + 1 && r.0[|h|].kind == BoxOf(v)
    ensures forall j :: 0 <= j < |h| && r.1 != Ref(j) ==> r.0[j] == h[j]
  {
    if Live(h, v) then (SetFlag(h, v.id, true), v)
    else (h + [Box(BoxOf(v), true)], Ref(|h|))
  }

  /** Tagging twice is harmless: a value that already carries the marker is
      handed back as it is, with the heap unchanged. */
  lemma MarkRejectedIdempotent(h: Heap, v: Val)
    requires IsRejected(h, v)
    ensures MarkRejected(h, v) == (h, v)
  {
    assert SetFlag(h, v.id, true) == h;
  }
}
